=== FILE: README.md ===
# Mis Finanzas Posta: chart engine and finance state

A Dafny model of the two pieces of logic of the Mis Finanzas Posta desktop
app that do not depend on the browser.

- **`SimpleChart`** (`dist/chart.js`) is the small Chart.js replacement that
  draws the app's line and bar charts. It is modelled as a pure function from
  the canvas size and the chart configuration to the list of drawing
  commands it issues: `Clear`, `Stroke` (a polyline), `FillPath` (a closed
  area), `FillRect` and `Text`. Coordinates are exact `real`s. The modules are
  `ChartTypes` (commands, configuration, layout constants), `ChartScale`
  (domain, ticks, value-to-pixel mapping, x spacing), `LineRender`,
  `BarRender` and `ChartInstance` (constructor, `draw`, `destroy`, and what a
  command history leaves visible).
- **The finance state** (`app.js`) is `{entries, incomeCategories,
  expenseCategories}`. The DOM handlers are modelled as pure transitions
  returning an `Outcome` (the delete and reset handlers included): `Changed(state)`, `Unchanged` (a guard that returns
  silently) or `Rejected(error)` (an error toast). The `confirm` and `prompt`
  answers are inputs. The modules are `Finance` (entries, state,
  `normalizeEntry`, `annotate`, totals), `FinanceCategories` (add, rename,
  delete a category), `FinanceEntries` (validation and expansion of the
  movement form), `FinanceQueries` (search, `sumByCategory`, `sumByType`,
  `groupByMonth`) `FinanceDeletes` (delete by id, by batch, resets) and `FinanceRefresh` (the
  re-render after a saved change, which sorts the stored entries newest
  first in place).
- `Wrappers`, `Seqs` and `Text` hold the shared `Option` type, sequence
  filtering, and the JavaScript string built-ins used (`trim`,
  `toLowerCase`, `includes`, string `<=`, number formatting).

The handler contracts describe the state the handler saves. Every handler
that saves then calls `refreshUI`, and `refreshUI` passes the stored array
itself to `renderSearchResults`, which sorts it in place by date, newest
first. `FinanceRefresh.Commit` is a handler outcome followed by that sort:
for example, the entries `AddEntries` appends end up in date position after
the refresh, not at the end.

A recurring invariant is `FinanceCategories.NoOrphans`: every entry's
category is listed for its type. Every action except clearing a category
list keeps it.

## Model

| member | source | states |
|---|---|---|
| ChartInstance.Properties | dist/chart.js:20-23 | The canvas `width` and `height` properties read the attributes, or 300 and 150 when an attribute is absent |
| ChartInstance.Normalize | dist/chart.js:20-23 | As written: a canvas width or height that reads 0 takes the client size; any other value is kept |
| ChartInstance.AbsentAttributesIgnoreClientBox | dist/chart.js:20-23 | As written, a canvas without attributes keeps 300x150 whatever its client box: 600x400 stays 300x150 |
| ChartInstance.NormalizeElement | dist/chart.js:20-23 | Corrected: a set, non-zero attribute is used; an absent or zero one takes the client size |
| ChartInstance.NormalizeElementFallsBack | dist/chart.js:20-23 | Corrected: an absent attribute falls back to the client size, a canvas with both attributes is normalised as written, and the result is already normal |
| ChartInstance.NormalizeIdempotent | dist/chart.js:20-23 | Normalising twice equals normalising once, and a canvas whose width and height are both non-zero is unchanged |
| ChartInstance.Draw | dist/chart.js:45-53 | Every render pass starts with a clear of the whole canvas and clears nothing after it. An unknown type draws only the clear. The clear is the only command exactly when a line chart has no label or no dataset, or a bar chart has no label or no first-dataset value |
| ChartInstance.Create | dist/chart.js:16-25 | The handle holds the canvas normalised as the constructor does it (`width \|\| clientWidth`, so an attribute-less canvas stays 300x150), and its one render pass is drawn at that size. That pass starts by clearing the whole canvas, a later `destroy` issues the same clear, and after it nothing the constructor drew stays visible |
| ChartInstance.CreateCorrected | dist/chart.js:20-23 | Corrected constructor: an absent attribute takes the client size; with both attributes set it equals `Create`; destroying it leaves nothing visible |
| ChartInstance.ClearAll | dist/chart.js:30-32 | `clearRect(0, 0, width, height)` covers the whole canvas and nothing beyond it |
| ChartInstance.Destroy | dist/chart.js:30-40 | `destroy` issues a single clear covering the whole canvas |
| ChartInstance.DestroyClearsFully | dist/chart.js:30-40 | After `destroy` nothing drawn before stays visible, and a second `destroy` leaves the canvas as the first did |
| ChartInstance.VisibleAppend | dist/chart.js:30-32 | Commands that are not full clears add to what is already visible |
| ChartInstance.DrawReplacesCanvas | dist/chart.js:45-53 | After a render pass, exactly that pass's drawing after its clear is visible, whatever the canvas showed before |
| ChartScale.AllValues | dist/chart.js:73-83 | The values scanned for the domain are exactly the values of all datasets |
| ChartScale.SeqMax | dist/chart.js:76-81 | The scan's maximum is an element and bounds every element from above |
| ChartScale.SeqMin | dist/chart.js:76-81 | The scan's minimum is an element and bounds every element from below |
| ChartScale.Domain | dist/chart.js:73-83 | No domain without any value. Otherwise `max` is the largest value, and `min` is at most 0 and at most every value, being either 0 or a value |
| ChartScale.DomainAnchoring | dist/chart.js:73-83 | All-positive data anchors the axis at 0; data with a negative value starts it at the true minimum, below 0; `min <= max` |
| ChartScale.Span | dist/chart.js:126-129 | The divisor `max - min \|\| 1` is never 0, and it is the true span of a non-flat domain |
| ChartScale.TicksUpTo | dist/chart.js:122-125 | Tick `i` is `min + i * (max - min) / 5` |
| ChartScale.TicksShape | dist/chart.js:122-125 | Exactly six ticks from `min` to `max`, evenly spaced by `(max - min) / 5` and non-decreasing |
| ChartScale.MapY | dist/chart.js:126-129 | The value-to-row mapping puts the domain minimum on the baseline `height - 30` |
| ChartScale.MapYInverse | dist/chart.js:150-153 | The mapping reads back: a row taken back through the plot height and the span gives the value drawn there |
| ChartScale.MapYEnds | dist/chart.js:126-129 | `min` maps to the baseline `height - 30`; the `max` of a non-flat domain maps to the top padding line `y = 30` |
| ChartScale.MapYFlat | dist/chart.js:150-153 | In a flat domain the division guard applies and every point lands on the baseline |
| ChartScale.MapYMonotone | dist/chart.js:126-129 | Larger values are never drawn lower, and strictly higher whenever the canvas is taller than twice the padding (at exactly twice the padding the plot has no height and every value shares the baseline row); values inside the domain stay between the padding lines |
| ChartScale.XSpacing | dist/chart.js:113-116 | Category 0 is at `x = 50`. With `n > 1` categories the last is at `width - 50`. Neighbours are `stepX` apart |
| LineRender.AxesCmd | dist/chart.js:98-106 | The axes are one 1-pixel stroke of three points: a vertical y-axis at `x = 50` from the top padding line, then a horizontal x-axis on the baseline to `width - 50` |
| LineRender.AxisOnBaseline | dist/chart.js:100-129 | The x-axis runs along the row where the minimum of any domain is drawn |
| LineRender.XLabelCmds | dist/chart.js:114-117 | One centred label per category, label `i` at `x = 50 + stepX * i`, 4 pixels under the x-axis |
| LineRender.TickCmds | dist/chart.js:126-137 | Each tick is a 4-pixel mark left of the y-axis at the tick's row, then its rounded value right-aligned 6 pixels left of the axis |
| LineRender.Polyline | dist/chart.js:145-157 | Point `i` of a dataset is at the x of category `i` and the row of its value |
| LineRender.AreaPathClosed | dist/chart.js:159-167 | The filled area is the polyline, then the baseline under the last point, then the baseline under the first point at `x = 50` |
| LineRender.DatasetCmds | dist/chart.js:140-168 | A dataset draws its line at width 2, then, only when `fill` is set, its area at alpha 0.5 |
| LineRender.SeriesLength | dist/chart.js:140-169 | The series draw one line per dataset plus one area per filled dataset |
| LineRender.LegendCmds | dist/chart.js:173-184 | `n` datasets give `n` swatches of 12x12 in dataset order. Swatch `k` is at `(width - 150, 30 + 18k)` in the line colour, followed by the label at `(x + 16, y + 6)` |
| LineRender.TickSection | dist/chart.js:122-137 | With at least one value there are six ticks with two commands each, and none otherwise |
| LineRender.LineChart | dist/chart.js:64-70 | A line chart draws nothing exactly when there is no label or no dataset, and it never clears |
| LineRender.LineChartLayout | dist/chart.js:98-184 | Drawing order: the axes, one label per category, the ticks, each dataset's line then its area, and last the legend |
| BarRender.BarMax | dist/chart.js:210 | `max(values, 1)`: at least 1 and every value, and either 1 or a value |
| BarRender.BarMaxIsLargest | dist/chart.js:210 | The scale of data with a value of at least 1 is one of the values, and bounds every value |
| BarRender.BarWidthBounds | dist/chart.js:220 | The value equal to the scale spans the whole available width. Values in `[0, max]` get widths in `[0, availableWidth]` |
| BarRender.BarRow | dist/chart.js:218-236 | A row draws the grey track at `y + rowHeight / 4`, then, when the value exists, the bar of width `availableWidth * v / max`. Then comes the label, right-aligned at `x = 94` on the row's middle line. When the value exists, its rounded text follows, left-aligned 4 pixels after the bar's end |
| BarRender.BarRows | dist/chart.js:218-236 | One row per label, row `i` reading value `i` |
| BarRender.Layout | dist/chart.js:210-215 | The layout's scale is at least 1 |
| BarRender.BarChartRows | dist/chart.js:201-236 | With a label and a first-dataset value, the bar chart is the rows of the computed layout, one after the other |
| BarRender.BarGeometry | dist/chart.js:212-221 | The available width is `width - 120`, the row height is `(height - 40) / labels.length`, and row `i` starts at `20 + i * rowHeight` |
| BarRender.BarChart | dist/chart.js:201-203 | A bar chart draws nothing exactly when there is no label or the first dataset has no value, and it never clears |
| BarRender.BarChartReadsFirstDatasetOnly | dist/chart.js:201-204 | Datasets after the first do not change the bar chart |
| BarRender.LargestBarFullWidth | dist/chart.js:210-227 | The bar of the largest value, when that is at least 1, spans the whole available width |
| BarRender.BarChartTwoCategories | dist/chart.js:210-220 | Two categories of 340 and 45: the scale is 340, the first bar spans the available width and the second gets 45/340 of it |
| Finance.WithCategories | app.js:362 | Replacing one type's category list keeps the other list and the entries |
| Finance.NormalizeEntry | app.js:5-10 | Every field is kept; a missing `batchId` becomes `''` and a present one is kept |
| Finance.NormalizeEntryIdempotent | app.js:5-10 | Normalising twice equals normalising once; an entry with a batch id is already normal |
| Finance.Annotate | app.js:232-234 | The annotation ends with the addition; with notes it starts with them and is longer, and it is the addition alone exactly when there are no notes |
| Finance.AnnotateKeepsBoth | app.js:232-234 | The result ends with `extra`. For empty notes it is `extra` alone; otherwise it is the notes, then `" · "`, then `extra` |
| Finance.Total | app.js:828 | The reference left fold of the amounts that `TotalConcat` and `SumByTypeSplit` reason about; one entry totals its own amount |
| Finance.TotalNonNegative | app.js:828 | Amounts none of which is negative total at least 0 |
| Finance.TotalConcat | app.js:828 | The amount total of two lists joined is the sum of their totals |
| FinanceCategories.AddCategory | app.js:355-372 | A blank trimmed name is refused, and so is a name already listed. Otherwise the trimmed name is appended to that type's list; the other list and the entries are unchanged |
| FinanceCategories.AddCategoryKeepsInvariants | app.js:362-366 | An accepted name was not yet listed, and adding it creates no orphan |
| FinanceCategories.UsedCount | app.js:398-399 | The count of entries using a category is 0 exactly when no entry of that type has that category |
| FinanceCategories.RenameInEntries | app.js:391-392 | Exactly the entries of that type filed under the old name get the new one; every other entry is unchanged |
| FinanceCategories.ReplaceName | app.js:389-390 | The old name is replaced at its own (first) index; a list without it is unchanged |
| FinanceCategories.RemoveName | app.js:403-404 | The first occurrence of the name leaves the list: the names before it and after it keep their order. A list without it is unchanged |
| FinanceCategories.CategoryActionStep | app.js:374-409 | Gives each guard outcome as an iff. No category: nothing. Rename: a cancelled or blank reply does nothing, and another listed name is refused as a duplicate; otherwise the list and the entries of that type are renamed. Delete: refused with the use count while any entry of that type uses the category; otherwise only the list changes |
| FinanceCategories.RenameNoOrphans | app.js:380-396 | After a rename, the entries of that type that carried the old name carry the new one. Entries of the other type are untouched, and the old name is unused when it changed. No orphan is created |
| FinanceCategories.DeleteNoOrphans | app.js:397-408 | Deleting an unused category creates no orphan, and a name listed once is gone afterwards |
| FinanceEntries.RepeatCount | app.js:175 | `Math.max(1, repeatCount)`: at least 1, and either 1 or the field's value |
| FinanceEntries.Expansion | app.js:190-205 | The expansion loop builds entry `i` from index `i`, in loop order |
| FinanceEntries.AddEntries | app.js:168-207 | An incomplete form (blank description, zero or non-numeric amount, missing date or category) is refused, and so is an unlisted category. Otherwise the expansion is appended after the kept entries. The categories are kept. Every new entry has the form's type and category and the one shared batch id |
| FinanceEntries.AddEntriesCount | app.js:175-207 | A form is accepted exactly when complete with a listed category. Monthly and instalment forms add exactly `max(1, repeatCount)` entries |
| FinanceEntries.BatchPrecedence | app.js:192 | A typed batch id wins. Otherwise a repeated form gets a fresh id and a single entry gets `''` |
| FinanceEntries.InstallmentShape | app.js:201-206 | Instalment `i` of `n` reads "description (cuota i+1/n)", carries `amount / n`, is dated `i` months on and is noted "Cuotas" |
| FinanceEntries.SingleShape | app.js:194-195 | A form without repetition adds one entry: the trimmed description, the amount, the form's date and category, the trimmed notes and the typed batch id |
| FinanceEntries.MonthlyShape | app.js:196-200 | Repetition `i` of `n` carries the full amount, is dated `i` months on and is noted "Repetición i+1/n" |
| FinanceEntries.TotalOfEqualAmounts | app.js:828 | `n` entries of amount `a` total `n * a` |
| FinanceEntries.InstallmentsTotal | app.js:201-206 | The instalments add back up to the amount typed in |
| FinanceEntries.AddEntriesNoOrphans | app.js:180-184 | Adding movements creates no orphan |
| FinanceQueries.Search | app.js:497-504 | The results are exactly the entries matching the text, category and date window, each with as many copies as it has in the store, in their stored order |
| FinanceQueries.SearchBlankAcceptsAll | app.js:497-504 | A blank search returns every entry |
| FinanceQueries.SearchCriteria | app.js:491-502 | Every result lies in `[from, to]` by string order and has the asked category, and the text filter ignores the case of the text typed |
| FinanceQueries.SumByType | app.js:827-829 | A type no entry has sums to 0 |
| FinanceQueries.SumByTypeSplit | app.js:827-829 | The income sum plus the expense sum is the total of all entries |
| FinanceQueries.SumByCategory | app.js:805-810 | The keys are exactly the categories the entries use |
| FinanceQueries.SumByCategoryTotals | app.js:805-810 | Each key maps to the total of exactly the entries filed under it |
| FinanceQueries.CategoryKeys | app.js:785 | The ranking labels are the used categories, each once |
| FinanceQueries.CategoryKeysPrefix | app.js:805-810 | Keys are only appended: the keys of a prefix of the entries are a prefix of all the keys, so they come in order of first appearance |
| FinanceQueries.RankValues | app.js:786 | One ranking value per label, value `i` being the total of the entries filed under label `i` |
| FinanceQueries.MonthKey | app.js:814 | The month key is the date's first 7 characters, or the whole of a shorter date |
| FinanceQueries.GroupByMonth | app.js:812-819 | The keys are exactly the months the entries fall in |
| FinanceQueries.GroupByMonthBuckets | app.js:812-819 | Each bucket is exactly its month's entries in stored order |
| FinanceQueries.GroupByMonthPartition | app.js:812-819 | An entry is in the bucket of its own month and of no other, and buckets keep the stored order |
| FinanceDeletes.DeleteEntry | app.js:599-606 | The handler saves (`Changed`) exactly when an entry is selected and the deletion is confirmed, and returns early (`Unchanged`) otherwise, never with an error. When it saves, exactly the entries with the selected id leave, every other entry keeps all its copies and its order, and the categories are kept |
| FinanceDeletes.DeleteBatch | app.js:610-621 | The handler saves (`Changed`) exactly when the batch id is set, some entry belongs to that batch and the deletion is confirmed, and returns early (`Unchanged`) otherwise. When it saves, exactly the entries of that batch leave, at least one does, and the rest keep all their copies and their order |
| FinanceDeletes.Reset | app.js:674-691 | The handler saves (`Changed`) exactly when the reset is confirmed, for every kind, and returns early (`Unchanged`) otherwise. `all` empties everything. Resetting one type removes exactly that type's entries, keeps every copy of the others in order, keeps the categories, and resetting a category list empties only that list |
| FinanceDeletes.ResetTypeTotals | app.js:680-682 | After resetting one type its sum is 0, and the other type's sum is kept and is the new total |
| FinanceDeletes.DeleteEntryNoOrphans | app.js:599-602 | Deleting an entry creates no orphan |
| FinanceDeletes.DeleteBatchNoOrphans | app.js:610-617 | Deleting a batch creates no orphan |
| FinanceDeletes.ResetNoOrphans | app.js:666-682 | Resetting everything or one type's movements creates no orphan |
| FinanceDeletes.ResetCategoriesLeavesOrphans | app.js:683-686 | Clearing the expense category list orphans any existing expense |
| Text.Trim | app.js:357 | `trim` is blank exactly for an all-space string and otherwise starts and ends with a non-space |
| Text.TrimIdempotent | app.js:357 | Trimming twice equals trimming once |
| Text.ToLower | app.js:492-498 | Lower-casing maps each character and keeps the length |
| Text.Contains | app.js:498 | `includes` holds exactly when the needle occurs at some index |
| Text.LessEqTotal | app.js:500-502 | String order is total, so a date is always comparable with the bounds |
| Text.LessEqTransitive | app.js:500-502 | String order is transitive |
| Text.LessEqReflexive | app.js:500-502 | Every string is `<=` itself |
| Text.NatToString | app.js:199-205 | The decimal text of a count reads back as that count, with no leading zero |
| Seqs.Filter | app.js:602 | `filter` keeps exactly the elements satisfying the predicate |
| Seqs.FilterIsSubsequence | app.js:602 | `filter` keeps the survivors in their order |
| Seqs.FilterCount | app.js:602 | `filter` keeps every copy of an accepted element and no copy of a rejected one |
| Seqs.RemoveAt | app.js:404 | `splice(idx, 1)` removes exactly the element at `idx` and shifts the rest down |
| FinanceRefresh.SortByDate | app.js:514 | The sort returns the same entries, with the same number of copies, newest first |
| FinanceRefresh.InsertStable | app.js:514 | One insertion step puts the entry after every entry of its own date and leaves the order within every other date alone |
| FinanceRefresh.SortStable | app.js:514 | The sort is stable: the entries of any one date keep their stored relative order |
| FinanceRefresh.SortKeepsSorted | app.js:514 | A list already newest first is left as it is, so sorting twice equals sorting once |
| FinanceRefresh.SortTotal | app.js:514 | Sorting does not change the amount total |
| FinanceRefresh.Refresh | app.js:253-257 | After `refreshUI` the stored entries are the same multiset, newest first, and the category lists are unchanged |
| FinanceRefresh.Commit | app.js:208-215 | Only a handler that changed the state saves and refreshes; then the stored entries are the handler's entries, newest first |
| FinanceRefresh.RefreshInvariants | app.js:253-257 | The refresh creates no orphan, keeps the total, and refreshing again changes nothing |

## Left out

- The DOM: rendering, event binding, toasts, the editor panel and `selectedEntryId` bookkeeping. Each guard's toast is the `Error` value. Of `refreshUI` only its one effect on the state is modelled: the in-place date sort of `state.entries` (`FinanceRefresh`).
- The `localStorage` copy written by `saveState` just before `refreshUI` holds the handler's order; the in-memory array is then sorted, and the next save stores the sorted order. `Commit` models the in-memory state.
- `new Date(b.date) - new Date(a.date)` is `NaN` for a malformed date, which makes the sort order implementation-defined. `SortByDate` assumes ISO `YYYY-MM-DD` dates, for which date order and string order agree.
- `localStorage`, backup download and restore (`loadState`, `saveState`, `getBackupPayload`, `restoreFromFile`). This is I/O. `normalizeEntry`, which loading applies, is modelled.
- `seedData` and the dashboard, monthly and ranking renderers that call the chart with derived data.
- `handleEditSubmit` and `openEditor`. Editing an entry is outside the modelled core.
- Date arithmetic: `shiftMonths`, `toInputDate` and `isSameMonth` depend on the host time zone. The date of the `i`-th repeated entry is the function `Env.shiftMonths`.
- Entry and batch ids from `crypto.randomUUID` or `Date.now`. They are the parameters `Env.ids` and `Env.freshBatch`.
- FinanceEntries.InstallmentShape: the instalment amount is the exact `amount / n`, not `+(amount / n).toFixed(2)`. Rounding to cents is floating-point formatting.
- FinanceEntries.InstallmentsTotal: the instalments add back to the amount only because the model divides exactly. In the source each part is rounded with `toFixed(2)`, so the parts can miss the amount by a few cents (100 in 3 parts gives 99.99).
- FinanceEntries.RepeatCount: the count is an integer. A non-numeric or fractional `repeatCount` field (`NaN`, `2.5`) is not modelled.
- The total of a monthly repetition (`n` times the amount) is not stated as a lemma. `TotalOfEqualAmounts` and `MonthlyShape` give it together.
- Malformed chart configurations. A config without `data` (dist/chart.js:47, 68) or a dataset without a `data` array (dist/chart.js:76, 148) makes the source throw a `TypeError`. `Config` and `Dataset` always carry those fields, so such inputs cannot be written.
- `Number(...)` coercions. Amounts are `real`, and a non-numeric amount is `None`, which the form treats as missing, as `!NaN` does. Chart values are numbers.
- Floating point, `NaN` and infinities. When datasets exist but hold no value, the scan leaves `[Infinity, -Infinity]` and the anchoring resets the minimum to 0, so the source's domain is `[0, -Infinity]`. Every tick row is then `NaN` and the canvas ignores those calls. The model's `Domain` is then `None`, and the ticks are omitted.
- `toFixed(0)` tick and bar value labels, and `String(label)`. The `Rounded(v)` and `Plain(s)` text contents record the value and leave the rounding and formatting uninterpreted.
- Canvas styling state (`font`, `textAlign` and `textBaseline` beyond the recorded alignments), pixel rasterisation and the half-open path semantics of `beginPath`. An empty dataset yields an empty `Stroke`.
- Text.ToLower: only ASCII `A`–`Z` is lower-cased. JavaScript's full Unicode case mapping is not modelled.
- Text.Trim: space, tab, line feed, carriage return, vertical tab, form feed, U+00A0, U+FEFF, U+2028 and U+2029 count as white space. The other Unicode space separators that JavaScript's `trim` also removes (U+1680, U+2000 to U+200A, U+202F, U+205F, U+3000) are not.
- Text.LessEq: strings compare by `char` code, matching JavaScript's UTF-16 code-unit order only for characters of the Basic Multilingual Plane.
- `sumByCategory` and `groupByMonth` build plain objects. A category or month named like an `Object.prototype` member (`constructor`, `toString`) would read an inherited value. The model uses maps, which have no such keys. `Object.keys` also lists integer-like keys (a category named `2024`) first, in numeric order; `CategoryKeys` keeps every key in order of first appearance.
- `renderSearchResults` also sorts the fresh array `handleSearch` builds. That array is not stored, so `Search` returns the filter's order and the display order is `SortByDate` of it.
- Theme and currency formatting (`applyTheme`, `formatCurrency`, `formatDate`, `formatMonthLabel`).
- `src-tauri/src/main.rs` only launches the window and holds no logic.

## Findings

| source | as written | input that shows it | evidently intended | confidence | as-written member | corrected member |
|---|---|---|---|---|---|---|
| dist/chart.js:20-23 | `canvas.width \|\| canvas.clientWidth`, and likewise for the height, meant as "the attribute if set, otherwise the client size" | A canvas with no `width`/`height` attributes and a 600x400 client box: the properties read 300 and 150, which are not 0, so the chart is drawn on a 300x150 bitmap | An absent attribute falls back to the client size, giving 600x400 | not executed | ChartInstance.AbsentAttributesIgnoreClientBox | ChartInstance.CreateCorrected |

`ChartInstance.Create` keeps the constructor as written; `ChartInstance.CreateCorrected`, built on `NormalizeElement` and `NormalizeElementFallsBack`, is the corrected constructor.

=== FILE: chart_bar.dfy ===
/** The horizontal bar chart renderer (`drawBarChart`): one row per label,
    each a light full-width track, the value bar over it scaled against the
    largest value (at least 1), the label left of the bars and the rounded
    value right of the bar's end. Only the first dataset is read. */
module BarRender {
  import opened Wrappers
  import opened Seqs
  import opened ChartTypes
  import opened ChartScale

  /** `data.datasets?.[0]` with its `data`, or no values without a dataset. */
  function BarValues(dss: seq<Dataset>): seq<real>
  {
    if |dss| == 0 then [] else dss[0].data
  }

  /** The bar colour: the first dataset's `backgroundColor`, else `#888`. */
  function BarColor(dss: seq<Dataset>): string
  {
    if |dss| == 0 then DefaultBarColor else OrElse(dss[0].backgroundColor, DefaultBarColor)
  }

  /** Label colour: y tick colour, else x tick colour, else `#000`. */
  function BarLabelColor(o: Options): string
  {
    OrElse2(o.yTickColor, o.xTickColor, DefaultBarLabelColor)
  }

  /** `Math.max(...values, 1)`: the largest value, or 1 when no value exceeds it. */
  function BarMax(values: seq<real>): (m: real)
    ensures m >= 1.0
    ensures forall i :: 0 <= i < |values| ==> values[i] <= m
    ensures m == 1.0 || m in values
  {
    var all := values + [1.0];
    assert forall i :: 0 <= i < |values| ==> all[i] == values[i];
    assert all[|values|] == 1.0;
    SeqMax(all)
  }

  /** `width - leftLabelWidth - rightPadding`. */
  function AvailableWidth(width: real): real
  {
    width - BarLabelWidth - BarRightPadding
  }

  /** `(height - topPadding * 2) / labels.length`. */
  function RowHeight(height: real, n: nat): real
    requires n > 0
  {
    (height - 2.0 * BarTopPadding) / n as real
  }

  /** `(availableWidth * val) / max`. */
  function BarWidth(avail: real, v: real, max: real): real
    requires max >= 1.0
  {
    (avail * v) / max
  }

  /** The largest value, when at least 1, fills the whole available width, and
      any value between 0 and the maximum gets a width between 0 and the
      available width. */
  lemma BarWidthBounds(avail: real, v: real, max: real)
    requires max >= 1.0
    ensures v == max ==> BarWidth(avail, v, max) == avail
    ensures avail >= 0.0 && 0.0 <= v <= max ==> 0.0 <= BarWidth(avail, v, max) <= avail
  {
    if avail >= 0.0 && 0.0 <= v <= max {
      assert avail * v <= avail * max;
      assert (avail * v) / max <= (avail * max) / max;
    }
  }

  /** What a row needs besides its index, label and value. */
  datatype BarLayout = BarLayout(avail: real, rowHeight: real, max: real, barColor: string, labelColor: string)

  /** `Number(values[i])`: `None` past the end of the values, where the source
      computes `NaN` and the canvas ignores the value bar and value text. */
  function ValueAt(values: seq<real>, i: nat): Option<real>
  {
    if i < |values| then Some(values[i]) else None
  }

  /** The top edge of row `i`: `topPadding + i * barHeight`. */
  function RowTop(l: BarLayout, i: nat): real
  {
    BarTopPadding + i as real * l.rowHeight
  }

  /** Row `i`: the track and the value bar, both half a row high and centred
      in the row, then the label right-aligned 6 pixels left of the bars and
      the value 4 pixels right of the bar's end. */
  function BarRow(l: BarLayout, i: nat, name: string, value: Option<real>): (cmds: seq<DrawCmd>)
    requires l.max >= 1.0
    ensures |cmds| == if value.Some? then 4 else 2
    ensures cmds[0] == FillRect(BarLabelWidth, RowTop(l, i) + l.rowHeight * 0.25, l.avail, l.rowHeight * 0.5, TrackColor)
    ensures value.Some? ==>
      cmds[1] == FillRect(BarLabelWidth, RowTop(l, i) + l.rowHeight * 0.25, BarWidth(l.avail, value.value, l.max), l.rowHeight * 0.5, l.barColor)
    // The label, right-aligned 6 pixels left of the bars, on the row's middle line.
    ensures cmds[if value.Some? then 2 else 1]
      == Text(Plain(name), BarLabelWidth - 6.0, RowTop(l, i) + l.rowHeight / 2.0, l.labelColor, AlignRight, BaselineMiddle)
    // The rounded value, left-aligned 4 pixels right of the bar's end.
    ensures value.Some? ==>
      cmds[3] == Text(Rounded(value.value), BarLabelWidth + BarWidth(l.avail, value.value, l.max) + 4.0,
                      RowTop(l, i) + l.rowHeight / 2.0, l.labelColor, AlignLeft, BaselineMiddle)
    ensures forall j :: 0 <= j < |cmds| ==> !cmds[j].Clear?
  {
    var y := RowTop(l, i);
    var mid := y + l.rowHeight * 0.5;
    var track := FillRect(BarLabelWidth, y + l.rowHeight * 0.25, l.avail, l.rowHeight * 0.5, TrackColor);
    var text := Text(Plain(name), BarLabelWidth - 6.0, mid, l.labelColor, AlignRight, BaselineMiddle);
    match value
    case None => [track, text]
    case Some(v) =>
      var w := BarWidth(l.avail, v, l.max);
      [track,
       FillRect(BarLabelWidth, y + l.rowHeight * 0.25, w, l.rowHeight * 0.5, l.barColor),
       text,
       Text(Rounded(v), BarLabelWidth + w + 4.0, mid, l.labelColor, AlignLeft, BaselineMiddle)]
  }

  /** One row per label, in label order, row `i` paired with `values[i]`. */
  function BarRows(l: BarLayout, labels: seq<string>, values: seq<real>): (rows: seq<seq<DrawCmd>>)
    requires l.max >= 1.0
    ensures |rows| == |labels|
    ensures forall i :: 0 <= i < |labels| ==> rows[i] == BarRow(l, i, labels[i], ValueAt(values, i))
  {
    if |labels| == 0 then []
    else
      var n := |labels| - 1;
      BarRows(l, labels[..n], values) + [BarRow(l, n, labels[n], ValueAt(values, n))]
  }

  /** The layout `drawBarChart` computes for a canvas and its values. */
  function Layout(width: real, height: real, nLabels: nat, dss: seq<Dataset>, o: Options): (l: BarLayout)
    requires nLabels > 0
    ensures l.max >= 1.0
  {
    BarLayout(AvailableWidth(width), RowHeight(height, nLabels), BarMax(BarValues(dss)), BarColor(dss), BarLabelColor(o))
  }

  /** Everything `drawBarChart` draws after the clear: the rows one after the
      other, and nothing when there is no label or the first dataset has no
      value. */
  function BarChart(width: real, height: real, labels: seq<string>, dss: seq<Dataset>, o: Options): (cmds: seq<DrawCmd>)
    ensures |labels| == 0 || |BarValues(dss)| == 0 <==> cmds == []
    ensures forall j :: 0 <= j < |cmds| ==> !cmds[j].Clear?
  {
    if |labels| == 0 || |BarValues(dss)| == 0 then []
    else
      var rows := BarRows(Layout(width, height, |labels|, dss, o), labels, BarValues(dss));
      assert |rows[0]| >= 2;
      FlattenAll(rows, (c: DrawCmd) => !c.Clear?);
      Flatten(rows)
  }

  /** A non-empty bar chart is its rows one after the other. */
  lemma BarChartRows(width: real, height: real, labels: seq<string>, dss: seq<Dataset>, o: Options)
    requires |labels| > 0 && |BarValues(dss)| > 0
    ensures BarChart(width, height, labels, dss, o)
      == Flatten(BarRows(Layout(width, height, |labels|, dss, o), labels, BarValues(dss)))
  {
  }

  /** The bars may span `width - 120` pixels and row `i` starts at
      `20 + i * (height - 40) / labels.length`. */
  lemma BarGeometry(width: real, height: real, n: nat, dss: seq<Dataset>, o: Options, i: nat)
    requires n > 0
    ensures var l := Layout(width, height, n, dss, o);
      && l.avail == width - 120.0
      && l.rowHeight == (height - 40.0) / n as real
      && RowTop(l, i) == 20.0 + i as real * l.rowHeight
  {
  }

  /** Only the first dataset is read: whatever follows it, the bars are the
      same. */
  lemma BarChartReadsFirstDatasetOnly(width: real, height: real, labels: seq<string>, d0: Dataset, rest: seq<Dataset>, o: Options)
    ensures BarChart(width, height, labels, [d0] + rest, o) == BarChart(width, height, labels, [d0], o)
  {
    assert BarValues([d0] + rest) == BarValues([d0]);
    assert BarColor([d0] + rest) == BarColor([d0]);
  }

  /** When some value reaches 1, the scale is the largest value itself. */
  lemma BarMaxIsLargest(values: seq<real>, k: nat)
    requires k < |values| && values[k] >= 1.0
    ensures BarMax(values) in values
    ensures values[k] <= BarMax(values)
  {
  }

  /** The row of the largest value, when that value is at least 1, has a bar
      spanning the whole available width `width - 120`. */
  lemma LargestBarFullWidth(width: real, height: real, labels: seq<string>, dss: seq<Dataset>, o: Options, k: nat)
    requires k < |labels| && k < |BarValues(dss)|
    requires BarValues(dss)[k] >= 1.0
    requires forall j :: 0 <= j < |BarValues(dss)| ==> BarValues(dss)[j] <= BarValues(dss)[k]
    ensures var l := Layout(width, height, |labels|, dss, o);
      && l.max == BarValues(dss)[k]
      && BarRows(l, labels, BarValues(dss))[k][1].w == width - 120.0
  {
    var l := Layout(width, height, |labels|, dss, o);
    var vs := BarValues(dss);
    BarMaxIsLargest(vs, k);
    assert l.max == vs[k];
    BarWidthBounds(l.avail, vs[k], l.max);
  }

  /** The scenario of two expense categories, 340 and 45: the maximum is 340,
      the first bar fills the available width and the second gets 45/340 of
      it. */
  lemma BarChartTwoCategories(width: real, height: real, o: Options, color: Option<string>)
    ensures var dss := [Dataset("Gastos", [340.0, 45.0], None, color, false)];
      var l := Layout(width, height, 2, dss, o);
      var rows := BarRows(l, ["Comida", "Ocio"], [340.0, 45.0]);
      && l.max == 340.0
      && rows[0][1].w == width - 120.0
      && rows[1][1].w == (width - 120.0) * 45.0 / 340.0
  {
    var dss := [Dataset("Gastos", [340.0, 45.0], None, color, false)];
    var l := Layout(width, height, 2, dss, o);
    assert l.max == 340.0;
    BarWidthBounds(l.avail, 340.0, 340.0);
  }
}

=== FILE: chart_instance.dfy ===
/** The chart handle (`SimpleChart`): construction normalises the canvas
    dimensions and performs the single render pass; `destroy` clears the
    canvas. Drawing is additive, so what remains visible on a canvas is what
    was drawn after its last full clear. */
module ChartInstance {
  import opened Wrappers
  import opened ChartTypes
  import LineRender
  import BarRender

  /** A constructed chart: the normalised canvas and the configuration. */
  datatype Chart = Chart(canvas: Canvas, config: Config)

  /** What the DOM reports for an element: each absent attribute reads as
      the default bitmap size. */
  function Properties(el: CanvasElement): (c: Canvas)
    ensures c.width == el.widthAttr.GetOr(DefaultCanvasWidth)
    ensures c.height == el.heightAttr.GetOr(DefaultCanvasHeight)
    ensures c.clientWidth == el.clientWidth && c.clientHeight == el.clientHeight
  {
    Canvas(el.widthAttr.GetOr(DefaultCanvasWidth), el.heightAttr.GetOr(DefaultCanvasHeight), el.clientWidth, el.clientHeight)
  }

  /** `canvas.width = canvas.width || canvas.clientWidth`, and likewise for the
      height, as written: a dimension that reads 0 takes the client box size,
      any other is kept. */
  function Normalize(c: Canvas): (n: Canvas)
    ensures n.width == if c.width != 0 then c.width else c.clientWidth
    ensures n.height == if c.height != 0 then c.height else c.clientHeight
    ensures n.clientWidth == c.clientWidth && n.clientHeight == c.clientHeight
  {
    c.(width := if c.width != 0 then c.width else c.clientWidth,
       height := if c.height != 0 then c.height else c.clientHeight)
  }

  /** Normalising an already normalised canvas changes nothing, and a canvas
      whose dimensions are non-zero keeps them. */
  lemma NormalizeIdempotent(c: Canvas)
    ensures Normalize(Normalize(c)) == Normalize(c)
    ensures c.width != 0 && c.height != 0 ==> Normalize(c) == c
  {
  }

  /** As written, the fallback never applies to a canvas without attributes:
      its properties read 300 by 150, which are kept whatever its client box.
      A 600 by 400 box keeps a 300 by 150 bitmap. */
  lemma AbsentAttributesIgnoreClientBox(el: CanvasElement)
    requires el.widthAttr.None? && el.heightAttr.None?
    ensures Normalize(Properties(el)).width == DefaultCanvasWidth
    ensures Normalize(Properties(el)).height == DefaultCanvasHeight
    ensures Normalize(Properties(CanvasElement(None, None, 600, 400))) == Canvas(300, 150, 600, 400)
  {
  }

  /** The normalisation the constructor's comment describes: an attribute
      that is set (to a non-zero size) is used, otherwise the client box. */
  function NormalizeElement(el: CanvasElement): (n: Canvas)
    ensures n.width == if el.widthAttr.Some? && el.widthAttr.value != 0 then el.widthAttr.value else el.clientWidth
    ensures n.height == if el.heightAttr.Some? && el.heightAttr.value != 0 then el.heightAttr.value else el.clientHeight
    ensures n.clientWidth == el.clientWidth && n.clientHeight == el.clientHeight
  {
    Canvas(if el.widthAttr.Some? && el.widthAttr.value != 0 then el.widthAttr.value else el.clientWidth,
           if el.heightAttr.Some? && el.heightAttr.value != 0 then el.heightAttr.value else el.clientHeight,
           el.clientWidth, el.clientHeight)
  }

  /** The corrected normalisation falls back to the client box exactly where
      an attribute is absent or zero, agrees with the code whenever both
      attributes are present, and is idempotent under the code's own rule. */
  lemma NormalizeElementFallsBack(el: CanvasElement)
    ensures el.widthAttr.None? ==> NormalizeElement(el).width == el.clientWidth
    ensures el.heightAttr.None? ==> NormalizeElement(el).height == el.clientHeight
    ensures el.widthAttr.Some? && el.heightAttr.Some? ==> NormalizeElement(el) == Normalize(Properties(el))
    ensures Normalize(NormalizeElement(el)) == NormalizeElement(el)
  {
  }

  /** `clearRect(0, 0, canvas.width, canvas.height)`. */
  function ClearAll(c: Canvas): (cmd: DrawCmd)
    ensures ClearsCanvas(cmd, c)
    // It covers the canvas and nothing beyond it.
    ensures cmd.x == 0.0 && cmd.y == 0.0 && cmd.x + cmd.w == c.width as real && cmd.y + cmd.h == c.height as real
  {
    Clear(0.0, 0.0, c.width as real, c.height as real)
  }

  /** A clear that covers the whole canvas. */
  predicate ClearsCanvas(cmd: DrawCmd, c: Canvas)
  {
    cmd.Clear? && cmd.x <= 0.0 && cmd.y <= 0.0
    && cmd.x + cmd.w >= c.width as real && cmd.y + cmd.h >= c.height as real
  }

  /** `draw()`: a full clear, then the renderer chosen by `type`. */
  function Draw(c: Canvas, cfg: Config): (cmds: seq<DrawCmd>)
    ensures |cmds| >= 1 && ClearsCanvas(cmds[0], c)
    // The clear is the only full clear: nothing else erases.
    ensures forall j :: 1 <= j < |cmds| ==> !cmds[j].Clear?
    // An unknown chart type draws nothing after the clear.
    ensures cfg.kind.OtherKind? ==> cmds == [ClearAll(c)]
    // Empty-input guards.
    ensures cfg.kind.LineKind? ==> (cmds == [ClearAll(c)] <==> |cfg.labels| == 0 || |cfg.datasets| == 0)
    ensures cfg.kind.BarKind? ==> (cmds == [ClearAll(c)] <==> |cfg.labels| == 0 || |BarRender.BarValues(cfg.datasets)| == 0)
  {
    var w := c.width as real;
    var h := c.height as real;
    var body := match cfg.kind
      case LineKind => LineRender.LineChart(w, h, cfg.labels, cfg.datasets, cfg.options)
      case BarKind => BarRender.BarChart(w, h, cfg.labels, cfg.datasets, cfg.options)
      case OtherKind => [];
    assert forall j :: 0 <= j < |body| ==> !body[j].Clear?;
    [ClearAll(c)] + body
  }

  /** `new Chart(ctx, config)`: the handle over the canvas normalised as the
      constructor does it, and the commands of its one render pass, drawn at
      that size. The pass's opening clear covers the handle's canvas and is
      the very clear `destroy` issues, so destroying the fresh chart leaves
      nothing. */
  function Create(el: CanvasElement, cfg: Config): (res: (Chart, seq<DrawCmd>))
    ensures res.0.canvas == Normalize(Properties(el)) && res.0.config == cfg
    ensures res.1 == Draw(res.0.canvas, cfg)
    ensures |res.1| >= 1 && ClearsCanvas(res.1[0], res.0.canvas)
    ensures Destroy(res.0)[0] == res.1[0]
    ensures Visible(res.0.canvas, res.1 + Destroy(res.0)) == []
  {
    var n := Normalize(Properties(el));
    var ch := Chart(n, cfg);
    var cmds := Draw(n, cfg);
    var all := cmds + Destroy(ch);
    assert all[|all| - 1] == ClearAll(n);
    (ch, cmds)
  }

  /** The constructor with the corrected sizing: an absent attribute takes
      the client box size. It differs from `Create` only in the canvas. */
  function CreateCorrected(el: CanvasElement, cfg: Config): (res: (Chart, seq<DrawCmd>))
    ensures res.0.canvas == NormalizeElement(el) && res.0.config == cfg
    ensures res.1 == Draw(res.0.canvas, cfg)
    ensures el.widthAttr.None? ==> res.0.canvas.width == el.clientWidth
    ensures el.heightAttr.None? ==> res.0.canvas.height == el.clientHeight
    ensures el.widthAttr.Some? && el.heightAttr.Some? ==> res == Create(el, cfg)
    ensures Visible(res.0.canvas, res.1 + Destroy(res.0)) == []
  {
    var n := NormalizeElement(el);
    NormalizeElementFallsBack(el);
    var ch := Chart(n, cfg);
    var cmds := Draw(n, cfg);
    var all := cmds + Destroy(ch);
    assert all[|all| - 1] == ClearAll(n);
    (ch, cmds)
  }

  /** `destroy()`: one clear of the whole canvas. */
  function Destroy(ch: Chart): (cmds: seq<DrawCmd>)
    ensures |cmds| == 1 && ClearsCanvas(cmds[0], ch.canvas)
  {
    [ClearAll(ch.canvas)]
  }

  /** What remains on the canvas of a command history: the commands drawn
      after the last clear of the whole canvas. */
  function Visible(c: Canvas, history: seq<DrawCmd>): (v: seq<DrawCmd>)
    ensures |v| <= |history|
    ensures forall j :: 0 <= j < |v| ==> !ClearsCanvas(v[j], c)
  {
    if |history| == 0 then []
    else
      var last := history[|history| - 1];
      if ClearsCanvas(last, c) then [] else Visible(c, history[..|history| - 1]) + [last]
  }

  /** After `destroy()` nothing drawn before remains, and destroying again
      leaves the canvas exactly as one destroy did. */
  lemma DestroyClearsFully(ch: Chart, history: seq<DrawCmd>)
    ensures Visible(ch.canvas, history + Destroy(ch)) == []
    ensures Visible(ch.canvas, history + Destroy(ch) + Destroy(ch)) == Visible(ch.canvas, history + Destroy(ch))
  {
    var h1 := history + Destroy(ch);
    assert h1[..|h1| - 1] == history;
    var h2 := h1 + Destroy(ch);
    assert h2[..|h2| - 1] == h1;
  }

  /** Everything not ending in a full clear extends what is visible. */
  lemma {:induction false} VisibleAppend(c: Canvas, history: seq<DrawCmd>, more: seq<DrawCmd>)
    requires forall j :: 0 <= j < |more| ==> !ClearsCanvas(more[j], c)
    ensures Visible(c, history + more) == Visible(c, history) + more
    decreases |more|
  {
    if |more| == 0 {
      assert history + more == history;
    } else {
      var m := |more| - 1;
      var all := history + more;
      VisibleAppend(c, history, more[..m]);
      assert all[..|all| - 1] == history + more[..m];
      assert all[|all| - 1] == more[m];
      assert !ClearsCanvas(more[m], c);
      assert Visible(c, all) == Visible(c, history + more[..m]) + [more[m]];
      assert more == more[..m] + [more[m]];
    }
  }

  /** A command list that starts with a full clear and clears nothing after
      it leaves visible exactly its own commands after the clear. */
  lemma VisibleAfterClear(c: Canvas, history: seq<DrawCmd>, cmds: seq<DrawCmd>)
    requires |cmds| >= 1 && ClearsCanvas(cmds[0], c)
    requires forall j :: 1 <= j < |cmds| ==> !cmds[j].Clear?
    ensures Visible(c, history + cmds) == cmds[1..]
  {
    var rest := cmds[1..];
    var pre := history + [cmds[0]];
    assert cmds == [cmds[0]] + rest;
    assert history + cmds == pre + rest;
    assert pre[..|pre| - 1] == history;
    VisibleAppend(c, pre, rest);
  }

  /** A render pass does not depend on what the canvas showed before: what is
      visible afterwards is exactly the pass's own drawing after its clear. */
  lemma DrawReplacesCanvas(c: Canvas, cfg: Config, history: seq<DrawCmd>)
    ensures Visible(c, history + Draw(c, cfg)) == Draw(c, cfg)[1..]
  {
    VisibleAfterClear(c, history, Draw(c, cfg));
  }
}

=== FILE: chart_line.dfy ===
/** The line chart renderer (`drawLineChart`): axes, category labels along
    the x-axis, six y-axis ticks, one polyline per dataset with an optional
    filled area, and a legend in the top-right corner. The clear that precedes
    it belongs to the chart instance. */
module LineRender {
  import opened Wrappers
  import opened Seqs
  import opened ChartTypes
  import opened ChartScale

  /** Axis and tick colour: x tick colour, else y tick colour, else `#666`. */
  function AxisColor(o: Options): string
  {
    OrElse2(o.xTickColor, o.yTickColor, DefaultAxisColor)
  }

  /** Legend label colour: `plugins.legend.labels.color`, else `#000`. */
  function LegendLabelColor(o: Options): string
  {
    OrElse(o.legendLabelColor, DefaultLegendColor)
  }

  /** The line colour of a dataset, also its legend swatch colour. */
  function LineColor(ds: Dataset): string
  {
    OrElse(ds.borderColor, DefaultBorderColor)
  }

  /** The y-axis and x-axis as one stroked path meeting at the bottom-left
      corner of the plot. */
  function AxesCmd(width: real, height: real, color: string): (cmd: DrawCmd)
    ensures cmd.Stroke? && |cmd.path| == 3 && cmd.color == color && cmd.lineWidth == 1.0
    // A vertical y-axis on the first category's x, from the top padding line down.
    ensures cmd.path[0].x == cmd.path[1].x == XAt(0.0, 0) && cmd.path[0].y == PadY
    // A horizontal x-axis on the baseline, to the right padding line.
    ensures cmd.path[1].y == cmd.path[2].y && cmd.path[2].x == width - PadX
    // The x-axis is the baseline, where the minimum of every domain is drawn.
    ensures cmd.path[1].y == height - PadY
  {
    Stroke([Point(PadX, PadY), Point(PadX, height - PadY), Point(width - PadX, height - PadY)], color, 1.0)
  }

  /** The x-axis runs along the row where the minimum of any domain is
      drawn. */
  lemma AxisOnBaseline(width: real, height: real, color: string, r: Range)
    ensures MapY(r, height, r.lo) == AxesCmd(width, height, color).path[1].y
  {
  }

  /** The category labels, label `i` centred under `x = 50 + stepX * i`,
      4 pixels below the x-axis. */
  function XLabelCmds(labels: seq<string>, stepX: real, height: real, color: string): (cmds: seq<DrawCmd>)
    ensures |cmds| == |labels|
    ensures forall i :: 0 <= i < |labels| ==>
      cmds[i] == Text(Plain(labels[i]), XAt(stepX, i), height - PadY + 4.0, color, AlignCenter, BaselineTop)
    ensures forall j :: 0 <= j < |cmds| ==> !cmds[j].Clear?
  {
    if |labels| == 0 then []
    else
      var n := |labels| - 1;
      XLabelCmds(labels[..n], stepX, height, color)
        + [Text(Plain(labels[n]), XAt(stepX, n), height - PadY + 4.0, color, AlignCenter, BaselineTop)]
  }

  /** For each tick value, a 4-pixel mark left of the y-axis at the value's
      row and the rounded value right-aligned 6 pixels left of the axis. */
  function TickCmds(ts: seq<real>, r: Range, height: real, color: string): (cmds: seq<DrawCmd>)
    ensures |cmds| == 2 * |ts|
    ensures forall i :: 0 <= i < |ts| ==>
      var y := MapY(r, height, ts[i]);
      && cmds[2 * i] == Stroke([Point(PadX - TickMarkLength, y), Point(PadX, y)], color, 1.0)
      && cmds[2 * i + 1] == Text(Rounded(ts[i]), PadX - 6.0, y, color, AlignRight, BaselineMiddle)
    ensures forall j :: 0 <= j < |cmds| ==> !cmds[j].Clear?
  {
    if |ts| == 0 then []
    else
      var n := |ts| - 1;
      var y := MapY(r, height, ts[n]);
      TickCmds(ts[..n], r, height, color)
        + [Stroke([Point(PadX - TickMarkLength, y), Point(PadX, y)], color, 1.0),
           Text(Rounded(ts[n]), PadX - 6.0, y, color, AlignRight, BaselineMiddle)]
  }

  /** The points of one dataset: point `i` at the x of category `i` and the
      row of its value, however many labels there are. */
  function Polyline(data: seq<real>, stepX: real, r: Range, height: real): (pts: seq<Point>)
    ensures |pts| == |data|
    ensures forall i :: 0 <= i < |data| ==> pts[i] == Point(XAt(stepX, i), MapY(r, height, data[i]))
  {
    if |data| == 0 then []
    else
      var n := |data| - 1;
      Polyline(data[..n], stepX, r, height) + [Point(XAt(stepX, n), MapY(r, height, data[n]))]
  }

  /** The stroked line continued down to the baseline under the last point,
      along the baseline to the y-axis, and closed. */
  function AreaPath(pts: seq<Point>, stepX: real, height: real): seq<Point>
  {
    pts + [Point(XAt(stepX, |pts| - 1), height - PadY), Point(PadX, height - PadY)]
  }

  /** The closed area of a non-empty line: it starts with the line itself,
      drops vertically to the baseline under the last point and returns along
      the baseline to the point under the first one, so closing the path joins
      the baseline back to the first point. */
  lemma AreaPathClosed(data: seq<real>, stepX: real, r: Range, height: real)
    requires |data| > 0
    ensures var pts := Polyline(data, stepX, r, height);
      var area := AreaPath(pts, stepX, height);
      && |area| == |data| + 2
      && area[..|data|] == pts
      && area[|data|] == Point(pts[|data| - 1].x, height - PadY)
      && area[|data| + 1] == Point(pts[0].x, height - PadY)
  {
    var pts := Polyline(data, stepX, r, height);
    var area := AreaPath(pts, stepX, height);
    assert area[..|data|] == pts;
    assert pts[0].x == XAt(stepX, 0) == PadX;
  }

  /** One dataset: its line at width 2, then, when `fill` is set, the area
      under it at half opacity. */
  function DatasetCmds(ds: Dataset, stepX: real, r: Range, height: real): (cmds: seq<DrawCmd>)
    ensures |cmds| == if ds.fill then 2 else 1
    ensures cmds[0].Stroke? && cmds[0].color == LineColor(ds) && cmds[0].lineWidth == 2.0
    ensures cmds[0].path == Polyline(ds.data, stepX, r, height)
    ensures ds.fill ==>
      && cmds[1].FillPath? && cmds[1].alpha == FillAlpha
      && cmds[1].path == AreaPath(cmds[0].path, stepX, height)
      && cmds[1].color == OrElse(ds.backgroundColor, DefaultAreaColor)
    ensures forall j :: 0 <= j < |cmds| ==> !cmds[j].Clear?
  {
    var pts := Polyline(ds.data, stepX, r, height);
    [Stroke(pts, LineColor(ds), 2.0)]
      + (if ds.fill then [FillPath(AreaPath(pts, stepX, height), OrElse(ds.backgroundColor, DefaultAreaColor), FillAlpha)] else [])
  }

  /** The command groups of the datasets, one group per dataset, in order. */
  function SeriesGroups(dss: seq<Dataset>, stepX: real, r: Range, height: real): (gs: seq<seq<DrawCmd>>)
    ensures |gs| == |dss|
    ensures forall k :: 0 <= k < |dss| ==> gs[k] == DatasetCmds(dss[k], stepX, r, height)
  {
    if |dss| == 0 then []
    else
      var n := |dss| - 1;
      SeriesGroups(dss[..n], stepX, r, height) + [DatasetCmds(dss[n], stepX, r, height)]
  }

  /** Number of datasets with `fill` set. */
  function FilledCount(dss: seq<Dataset>): nat
  {
    if |dss| == 0 then 0 else (if dss[0].fill then 1 else 0) + FilledCount(dss[1..])
  }

  /** The series section holds one line per dataset plus one area per filled
      dataset. */
  lemma {:induction false} SeriesLength(dss: seq<Dataset>, stepX: real, r: Range, height: real)
    ensures |Flatten(SeriesGroups(dss, stepX, r, height))| == |dss| + FilledCount(dss)
  {
    if |dss| > 0 {
      var gs := SeriesGroups(dss, stepX, r, height);
      SeriesLength(dss[1..], stepX, r, height);
      assert gs[1..] == SeriesGroups(dss[1..], stepX, r, height);
    }
  }

  /** The legend: swatch `k` is a 12x12 square in the line colour of dataset
      `k` at `(width - 150, 30 + 18k)`, followed by that dataset's label 16
      pixels to the right, vertically centred on the swatch. */
  function LegendCmds(dss: seq<Dataset>, width: real, color: string): (cmds: seq<DrawCmd>)
    ensures |cmds| == 2 * |dss|
    ensures forall k :: 0 <= k < |dss| ==>
      var x := width - PadX - LegendInset;
      var y := PadY + LegendRowHeight * k as real;
      && cmds[2 * k] == FillRect(x, y, SwatchSize, SwatchSize, LineColor(dss[k]))
      && cmds[2 * k + 1] == Text(Plain(dss[k].caption), x + 16.0, y + SwatchSize / 2.0, color, AlignLeft, BaselineMiddle)
    ensures forall j :: 0 <= j < |cmds| ==> !cmds[j].Clear?
  {
    if |dss| == 0 then []
    else
      var n := |dss| - 1;
      var x := width - PadX - LegendInset;
      var y := PadY + LegendRowHeight * n as real;
      LegendCmds(dss[..n], width, color)
        + [FillRect(x, y, SwatchSize, SwatchSize, LineColor(dss[n])),
           Text(Plain(dss[n].caption), x + 16.0, y + 6.0, color, AlignLeft, BaselineMiddle)]
  }

  /** The y-axis ticks over the domain; none when no dataset holds a value
      (the source then computes non-finite coordinates, which the canvas
      ignores). */
  function TickSection(dss: seq<Dataset>, height: real, color: string): (cmds: seq<DrawCmd>)
    ensures Domain(dss).None? ==> cmds == []
    ensures Domain(dss).Some? ==> cmds == TickCmds(Ticks(Domain(dss).value), Domain(dss).value, height, color)
    ensures |cmds| == if Domain(dss).Some? then 12 else 0
    ensures forall j :: 0 <= j < |cmds| ==> !cmds[j].Clear?
  {
    match Domain(dss)
    case None => []
    case Some(r) => TickCmds(Ticks(r), r, height, color)
  }

  /** Everything `drawLineChart` draws after the clear: nothing at all when
      there is no label or no dataset. */
  function LineChart(width: real, height: real, labels: seq<string>, dss: seq<Dataset>, o: Options): (cmds: seq<DrawCmd>)
    ensures |labels| == 0 || |dss| == 0 <==> cmds == []
    ensures forall j :: 0 <= j < |cmds| ==> !cmds[j].Clear?
  {
    if |labels| == 0 || |dss| == 0 then []
    else
      var stepX := StepX(|labels|, width);
      // Without any value no point is drawn, so the placeholder domain is never used.
      var r := Domain(dss).GetOr(Range(0.0, 0.0));
      var axis := AxisColor(o);
      var p := (c: DrawCmd) => !c.Clear?;
      var head := [AxesCmd(width, height, axis)] + XLabelCmds(labels, stepX, height, axis);
      var ticks := TickSection(dss, height, axis);
      var series := Flatten(SeriesGroups(dss, stepX, r, height));
      var legend := LegendCmds(dss, width, LegendLabelColor(o));
      FlattenAll(SeriesGroups(dss, stepX, r, height), p);
      AllConcat([AxesCmd(width, height, axis)], XLabelCmds(labels, stepX, height, axis), p);
      AllConcat(head, ticks, p);
      AllConcat(head + ticks, series, p);
      AllConcat(head + ticks + series, legend, p);
      head + ticks + series + legend
  }

  /** The layout of a non-empty line chart, in drawing order: the axes, one
      label per category, the six ticks (when there is a value), one line per
      dataset followed by its area when filled, and last the legend. */
  lemma LineChartLayout(width: real, height: real, labels: seq<string>, dss: seq<Dataset>, o: Options)
    requires |labels| > 0 && |dss| > 0
    ensures var cmds := LineChart(width, height, labels, dss, o);
      var stepX := StepX(|labels|, width);
      var r := Domain(dss).GetOr(Range(0.0, 0.0));
      var a := 1 + |labels|;
      var b := a + |TickSection(dss, height, AxisColor(o))|;
      var c := b + |dss| + FilledCount(dss);
      && |cmds| == c + 2 * |dss|
      && cmds[0] == AxesCmd(width, height, AxisColor(o))
      && cmds[1..a] == XLabelCmds(labels, stepX, height, AxisColor(o))
      && cmds[a..b] == TickSection(dss, height, AxisColor(o))
      && cmds[b..c] == Flatten(SeriesGroups(dss, stepX, r, height))
      && cmds[b] == Stroke(Polyline(dss[0].data, stepX, r, height), LineColor(dss[0]), 2.0)
      && cmds[c..] == LegendCmds(dss, width, LegendLabelColor(o))
  {
    var stepX := StepX(|labels|, width);
    var r := Domain(dss).GetOr(Range(0.0, 0.0));
    var axis := AxisColor(o);
    var xl := XLabelCmds(labels, stepX, height, axis);
    var tk := TickSection(dss, height, axis);
    var series := Flatten(SeriesGroups(dss, stepX, r, height));
    var legend := LegendCmds(dss, width, LegendLabelColor(o));
    SeriesLength(dss, stepX, r, height);
    SeriesStartsWithFirstLine(dss, stepX, r, height);
    LineChartParts(width, height, labels, dss, o);
    SectionOffsets(LineChart(width, height, labels, dss, o), AxesCmd(width, height, axis), xl, tk, series, legend);
  }

  /** Where each section of a five-section command list begins and ends. */
  lemma SectionOffsets(cmds: seq<DrawCmd>, axes: DrawCmd, xl: seq<DrawCmd>, tk: seq<DrawCmd>, series: seq<DrawCmd>, legend: seq<DrawCmd>)
    requires cmds == [axes] + xl + tk + series + legend
    requires |series| > 0
    ensures var a := 1 + |xl|;
      var b := a + |tk|;
      var c := b + |series|;
      && |cmds| == c + |legend|
      && cmds[0] == axes && cmds[1..a] == xl && cmds[a..b] == tk
      && cmds[b..c] == series && cmds[b] == series[0] && cmds[c..] == legend
  {
    ConcatParts([axes], xl, tk, series, legend);
    var b := 1 + |xl| + |tk|;
    assert cmds[b] == cmds[b..b + |series|][0];
  }

  /** A non-empty line chart is its five sections one after the other. */
  lemma LineChartParts(width: real, height: real, labels: seq<string>, dss: seq<Dataset>, o: Options)
    requires |labels| > 0 && |dss| > 0
    ensures var stepX := StepX(|labels|, width);
      var r := Domain(dss).GetOr(Range(0.0, 0.0));
      LineChart(width, height, labels, dss, o)
      == [AxesCmd(width, height, AxisColor(o))] + XLabelCmds(labels, stepX, height, AxisColor(o))
         + TickSection(dss, height, AxisColor(o)) + Flatten(SeriesGroups(dss, stepX, r, height))
         + LegendCmds(dss, width, LegendLabelColor(o))
  {
  }

  /** The series section opens with the first dataset's line. */
  lemma SeriesStartsWithFirstLine(dss: seq<Dataset>, stepX: real, r: Range, height: real)
    requires |dss| > 0
    ensures |Flatten(SeriesGroups(dss, stepX, r, height))| > 0
    ensures Flatten(SeriesGroups(dss, stepX, r, height))[0]
      == Stroke(Polyline(dss[0].data, stepX, r, height), LineColor(dss[0]), 2.0)
  {
    var gs := SeriesGroups(dss, stepX, r, height);
    var first := DatasetCmds(dss[0], stepX, r, height);
    assert gs[0] == first;
    assert Flatten(gs) == first + Flatten(gs[1..]);
  }
}

=== FILE: chart_scale.dfy ===
/** The scale arithmetic of the line chart: the value domain shared by all
    datasets, the six y-axis ticks, the value-to-pixel mapping and the
    horizontal spacing of categories. */
module ChartScale {
  import opened Wrappers
  import opened ChartTypes

  /** Every value of every dataset, datasets in order. */
  function AllValues(dss: seq<Dataset>): (r: seq<real>)
    ensures forall k, i :: 0 <= k < |dss| && 0 <= i < |dss[k].data| ==> dss[k].data[i] in r
    ensures forall v :: v in r ==> exists k :: 0 <= k < |dss| && v in dss[k].data
  {
    if |dss| == 0 then [] else dss[0].data + AllValues(dss[1..])
  }

  /** The largest element: the value the scan `if (val > max) max = val`
      ends with. */
  function SeqMax(s: seq<real>): (m: real)
    requires |s| > 0
    ensures m in s
    ensures forall i :: 0 <= i < |s| ==> s[i] <= m
  {
    if |s| == 1 then s[0]
    else
      var m := SeqMax(s[1..]);
      assert forall i :: 1 <= i < |s| ==> s[i] == s[1..][i - 1];
      if s[0] > m then s[0] else m
  }

  /** The smallest element: the value the scan `if (val < min) min = val`
      ends with. */
  function SeqMin(s: seq<real>): (m: real)
    requires |s| > 0
    ensures m in s
    ensures forall i :: 0 <= i < |s| ==> m <= s[i]
  {
    if |s| == 1 then s[0]
    else
      var m := SeqMin(s[1..]);
      assert forall i :: 1 <= i < |s| ==> s[i] == s[1..][i - 1];
      if s[0] < m then s[0] else m
  }

  /** The `[min, max]` domain of the value axis. */
  datatype Range = Range(lo: real, hi: real)

  /** The domain of the line chart: `hi` is the largest value of all datasets;
      `lo` is the smallest value, replaced by 0 when that is positive. `None`
      when the datasets hold no value at all. */
  function Domain(dss: seq<Dataset>): (r: Option<Range>)
    ensures r.None? <==> AllValues(dss) == []
    ensures r.Some? ==>
      var vs := AllValues(dss);
      && r.value.hi in vs
      && (forall v :: v in vs ==> v <= r.value.hi)
      && r.value.lo <= 0.0
      && (forall v :: v in vs ==> r.value.lo <= v)
      && (r.value.lo == 0.0 || r.value.lo in vs)
  {
    var vs := AllValues(dss);
    if |vs| == 0 then None
    else
      var mn := SeqMin(vs);
      Some(Range(if mn > 0.0 then 0.0 else mn, SeqMax(vs)))
  }

  /** Anchoring: all-positive data starts the axis at zero; data with a
      negative value starts it at the true minimum. */
  lemma DomainAnchoring(dss: seq<Dataset>)
    requires AllValues(dss) != []
    ensures (forall v :: v in AllValues(dss) ==> v > 0.0) ==> Domain(dss).value.lo == 0.0
    ensures (exists v :: v in AllValues(dss) && v < 0.0) ==>
      Domain(dss).value.lo == SeqMin(AllValues(dss)) && Domain(dss).value.lo < 0.0
    ensures Domain(dss).value.lo <= Domain(dss).value.hi
  {
    var vs := AllValues(dss);
    assert vs[0] in vs;
  }

  /** `max - min || 1`: the span, with a flat domain's zero replaced by 1. */
  function Span(r: Range): (d: real)
    ensures d != 0.0
    ensures r.lo < r.hi ==> d == r.hi - r.lo
  {
    if r.hi - r.lo == 0.0 then 1.0 else r.hi - r.lo
  }

  /** `(max - min) / tickCount`. */
  function TickStep(r: Range): real
  {
    (r.hi - r.lo) / TickCount as real
  }

  /** The tick values `min + tickStep * i` for `i = 0 .. n - 1`, built in loop order. */
  function TicksUpTo(r: Range, n: nat): (ts: seq<real>)
    ensures |ts| == n
    ensures forall i :: 0 <= i < n ==> ts[i] == r.lo + TickStep(r) * i as real
  {
    if n == 0 then [] else TicksUpTo(r, n - 1) + [r.lo + TickStep(r) * (n - 1) as real]
  }

  /** The y-axis tick values: `i = 0 .. tickCount` inclusive. */
  function Ticks(r: Range): (ts: seq<real>)
    ensures |ts| == TickCount + 1
  {
    TicksUpTo(r, TickCount + 1)
  }

  /** Six ticks, the first at `min`, the last at `max`, evenly spaced and
      non-decreasing over an ordered domain. */
  lemma TicksShape(r: Range)
    ensures |Ticks(r)| == 6
    ensures Ticks(r)[0] == r.lo && Ticks(r)[5] == r.hi
    ensures forall i :: 0 <= i < 5 ==> Ticks(r)[i + 1] - Ticks(r)[i] == (r.hi - r.lo) / 5.0
    ensures r.lo <= r.hi ==> forall i, j :: 0 <= i <= j < 6 ==> Ticks(r)[i] <= Ticks(r)[j]
  {
    var ts := Ticks(r);
    var step := TickStep(r);
    assert ts[5] == r.lo + step * 5.0;
    if r.lo <= r.hi {
      TicksOrdered(r);
    }
  }

  /** Over an ordered domain a later tick is never below an earlier one. */
  lemma TicksOrdered(r: Range)
    requires r.lo <= r.hi
    ensures forall i, j :: 0 <= i <= j < 6 ==> Ticks(r)[i] <= Ticks(r)[j]
  {
    var ts := Ticks(r);
    var step := TickStep(r);
    assert step >= 0.0;
    forall i, j | 0 <= i <= j < 6
      ensures ts[i] <= ts[j]
    {
      MulMonotone(i as real, j as real, step);
      assert step * i as real <= step * j as real;
    }
  }

  /** Plot height of a `height`-pixel canvas. */
  function PlotHeight(height: real): real
  {
    height - 2.0 * PadY
  }

  /** Plot width of a `width`-pixel canvas. */
  function PlotWidth(width: real): real
  {
    width - 2.0 * PadX
  }

  /** The pixel row of value `v`:
      `height - yPadding - ((v - min) / (max - min || 1)) * plotHeight`. */
  function MapY(r: Range, height: real, v: real): (y: real)
    // The domain minimum is drawn on the baseline.
    ensures v == r.lo ==> y == height - PadY
  {
    height - PadY - ((v - r.lo) / Span(r)) * PlotHeight(height)
  }

  /** The mapping can be read back: a row taken back through the plot height
      and the span recovers the value drawn there. */
  lemma MapYInverse(r: Range, height: real, v: real)
    requires PlotHeight(height) != 0.0
    ensures r.lo + (height - PadY - MapY(r, height, v)) / PlotHeight(height) * Span(r) == v
  {
    var s := Span(r);
    var ph := PlotHeight(height);
    var f := (v - r.lo) / s;
    assert height - PadY - MapY(r, height, v) == f * ph;
    assert (f * ph) / ph == f;
    assert f * s == v - r.lo;
  }

  /** The domain minimum sits on the baseline; the maximum of a non-flat
      domain sits on the top padding line. */
  lemma MapYEnds(r: Range, height: real)
    ensures MapY(r, height, r.lo) == height - PadY
    ensures r.lo < r.hi ==> MapY(r, height, r.hi) == PadY
  {
    if r.lo < r.hi {
      assert (r.hi - r.lo) / Span(r) == 1.0;
    }
  }

  /** A flat domain (`max == min`): the division guard applies and every point
      of the series lands on the baseline. */
  lemma MapYFlat(r: Range, height: real, v: real)
    requires r.lo == r.hi && v == r.lo
    ensures Span(r) == 1.0
    ensures MapY(r, height, v) == height - PadY
  {
  }

  /** A part of a positive whole is at most all of it. */
  lemma FractionAtMostOne(a: real, s: real)
    requires 0.0 <= a <= s && s > 0.0
    ensures a / s <= 1.0
  {
  }

  /** Dividing by a positive number keeps the order, strict or not. */
  lemma DivMonotone(a: real, b: real, s: real)
    requires a <= b && s > 0.0
    ensures a / s <= b / s
    ensures a < b ==> a / s < b / s
  {
  }

  /** Scaling by a non-negative number keeps the order, and by a positive
      one keeps it strict. */
  lemma MulMonotone(a: real, b: real, k: real)
    requires a <= b && k >= 0.0
    ensures a * k <= b * k
    ensures a < b && k > 0.0 ==> a * k < b * k
  {
  }

  /** Larger values are never drawn lower (larger y), and strictly higher
      once the plot has a positive height; values inside the domain stay
      inside the plot, whenever the canvas is at least twice the padding
      tall. */
  lemma MapYMonotone(r: Range, height: real, v: real, w: real)
    requires r.lo <= r.hi && height >= 2.0 * PadY
    requires v <= w
    ensures MapY(r, height, w) <= MapY(r, height, v)
    ensures height > 2.0 * PadY && v < w ==> MapY(r, height, w) < MapY(r, height, v)
    ensures r.lo <= v <= r.hi ==> PadY <= MapY(r, height, v) <= height - PadY
  {
    MapYOrder(r, height, v, w);
    if r.lo <= v <= r.hi {
      MapYInside(r, height, v);
    }
  }

  /** The order half of `MapYMonotone`. */
  lemma MapYOrder(r: Range, height: real, v: real, w: real)
    requires r.lo <= r.hi && height >= 2.0 * PadY
    requires v <= w
    ensures MapY(r, height, w) <= MapY(r, height, v)
    ensures height > 2.0 * PadY && v < w ==> MapY(r, height, w) < MapY(r, height, v)
  {
    var s := Span(r);
    var ph := PlotHeight(height);
    DivMonotone(v - r.lo, w - r.lo, s);
    MulMonotone((v - r.lo) / s, (w - r.lo) / s, ph);
    if height > 2.0 * PadY && v < w {
      MapYStrict(r, height, v, w);
    }
  }

  /** The strict half of `MapYOrder`: with a positive plot height distinct
      values get distinct rows. */
  lemma MapYStrict(r: Range, height: real, v: real, w: real)
    requires r.lo <= r.hi && height > 2.0 * PadY
    requires v < w
    ensures MapY(r, height, w) < MapY(r, height, v)
  {
    var s := Span(r);
    var a, b := (v - r.lo) / s, (w - r.lo) / s;
    DivMonotone(v - r.lo, w - r.lo, s);
    LowerForLarger(height - PadY, a, b, PlotHeight(height));
  }

  /** Subtracting the larger of two positive multiples leaves less. */
  lemma LowerForLarger(base: real, a: real, b: real, k: real)
    requires a < b && k > 0.0
    ensures base - b * k < base - a * k
  {
    MulMonotone(a, b, k);
  }

  /** The bounds half of `MapYMonotone`. */
  lemma MapYInside(r: Range, height: real, v: real)
    requires r.lo <= v <= r.hi && height >= 2.0 * PadY
    ensures PadY <= MapY(r, height, v) <= height - PadY
  {
    var s := Span(r);
    var ph := PlotHeight(height);
    var f := (v - r.lo) / s;
    DivMonotone(0.0, v - r.lo, s);
    if r.lo < r.hi {
      FractionAtMostOne(v - r.lo, s);
    } else {
      assert v - r.lo == 0.0;
    }
    MulMonotone(0.0, f, ph);
    MulMonotone(f, 1.0, ph);
  }

  /** `stepX`: the plot width split into `n - 1` gaps, or the whole plot width
      for a single label. */
  function StepX(n: nat, width: real): real
  {
    if n > 1 then PlotWidth(width) / (n - 1) as real else PlotWidth(width)
  }

  /** The x position of category or point `i`. */
  function XAt(stepX: real, i: int): real
  {
    PadX + stepX * i as real
  }

  /** The first category is on the y-axis; with two or more, the last one is
      on the right end of the x-axis and consecutive ones are `stepX` apart. */
  lemma XSpacing(n: nat, width: real)
    ensures XAt(StepX(n, width), 0) == PadX
    ensures n > 1 ==> XAt(StepX(n, width), n - 1) == width - PadX
    ensures forall i :: XAt(StepX(n, width), i + 1) - XAt(StepX(n, width), i) == StepX(n, width)
  {
    if n > 1 {
      var d := (n - 1) as real;
      assert PlotWidth(width) / d * d == PlotWidth(width);
    }
  }
}

=== FILE: chart_types.dfy ===
/** The vocabulary of the canvas chart engine: the configuration a caller
    hands to `new Chart(ctx, config)`, the canvas it draws on, and the drawing
    operations it issues, recorded as data. */
module ChartTypes {
  import opened Wrappers

  datatype Point = Point(x: real, y: real)

  datatype Align = AlignLeft | AlignCenter | AlignRight

  datatype Baseline = BaselineTop | BaselineMiddle

  /** What a `fillText` call prints: a caller string as is, or a number through
      `toFixed(0)`, whose digits are not modelled. */
  datatype TextContent = Plain(s: string) | Rounded(v: real)

  /** One canvas operation. A `Stroke` is a `beginPath`/`moveTo`/`lineTo`…/
      `stroke` sequence; a `FillPath` is a closed path filled at `alpha`. */
  datatype DrawCmd =
    | Clear(x: real, y: real, w: real, h: real)
    | Stroke(path: seq<Point>, color: string, lineWidth: real)
    | FillPath(path: seq<Point>, color: string, alpha: real)
    | FillRect(x: real, y: real, w: real, h: real, color: string)
    | Text(content: TextContent, x: real, y: real, color: string, align: Align, baseline: Baseline)

  /** The `type` key; any other string draws nothing beyond the clear. */
  datatype ChartKind = LineKind | BarKind | OtherKind

  /** One entry of `data.datasets`; `caption` is its `label` key. A colour is
      `None` when the key is absent. */
  datatype Dataset = Dataset(
    caption: string,
    data: seq<real>,
    borderColor: Option<string>,
    backgroundColor: Option<string>,
    fill: bool)

  /** The three colours the engine reads from `options`:
      `scales.x.ticks.color`, `scales.y.ticks.color` and
      `plugins.legend.labels.color`. */
  datatype Options = Options(
    xTickColor: Option<string>,
    yTickColor: Option<string>,
    legendLabelColor: Option<string>)

  datatype Config = Config(kind: ChartKind, labels: seq<string>, datasets: seq<Dataset>, options: Options)

  /** A canvas as its DOM properties report it: the bitmap `width`/`height`
      (the attribute values, or 300 by 150 when the attributes are absent) and
      the rendered client box. */
  datatype Canvas = Canvas(width: nat, height: nat, clientWidth: nat, clientHeight: nat)

  /** A canvas element as written in the page: its `width`/`height`
      attributes (`None` when absent) and its rendered client box. */
  datatype CanvasElement = CanvasElement(widthAttr: Option<nat>, heightAttr: Option<nat>, clientWidth: nat, clientHeight: nat)

  /** The bitmap size of a canvas without `width`/`height` attributes
      (section 4.12.5 of the HTML Living Standard). */
  const DefaultCanvasWidth: nat := 300
  const DefaultCanvasHeight: nat := 150

  // Line chart layout.
  const PadX: real := 50.0
  const PadY: real := 30.0
  const TickCount: nat := 5
  const TickMarkLength: real := 4.0
  const LegendInset: real := 100.0
  const LegendRowHeight: real := 18.0
  const SwatchSize: real := 12.0
  const FillAlpha: real := 0.5

  // Bar chart layout.
  const BarTopPadding: real := 20.0
  const BarLabelWidth: real := 100.0
  const BarRightPadding: real := 20.0

  // Default colours.
  const DefaultAxisColor: string := "#666"
  const DefaultLegendColor: string := "#000"
  const DefaultBorderColor: string := "#000"
  const DefaultAreaColor: string := "rgba(0, 0, 0, 0.1)"
  const DefaultBarColor: string := "#888"
  const DefaultBarLabelColor: string := "#000"
  const TrackColor: string := "#e5e5e5"
}

=== FILE: finance_categories.dfy ===
/** The category handlers: adding a category to one type's list, and the
    rename and delete actions of a category chip. */
module FinanceCategories {
  import opened Wrappers
  import opened Seqs
  import Text
  import opened Finance

  /** Every entry's category is listed for the entry's type: no orphan
      movements. */
  predicate NoOrphans(s: State)
  {
    forall i :: 0 <= i < |s.entries| ==> s.entries[i].category in Categories(s, s.entries[i].kind)
  }

  /** `handleCategoryAdd`: the typed name, trimmed, appended to the end of the
      type's list, unless it is blank or already listed. */
  function AddCategory(s: State, t: EntryType, input: string): (o: Outcome)
    ensures !o.Unchanged?
    ensures o == Rejected(BlankName) <==> Text.Trim(input) == ""
    ensures o == Rejected(DuplicateName) <==> Text.Trim(input) != "" && Text.Trim(input) in Categories(s, t)
    ensures o.Changed? ==>
      && Categories(o.state, t) == Categories(s, t) + [Text.Trim(input)]
      && Categories(o.state, t.Other()) == Categories(s, t.Other())
      && o.state.entries == s.entries
  {
    var value := Text.Trim(input);
    if value == "" then Rejected(BlankName)
    else if value in Categories(s, t) then Rejected(DuplicateName)
    else Changed(WithCategories(s, t, Categories(s, t) + [value]))
  }

  /** An accepted name is new to its list, so the list stays free of
      duplicates, and adding a category creates no orphan. */
  lemma AddCategoryKeepsInvariants(s: State, t: EntryType, input: string)
    requires AddCategory(s, t, input).Changed?
    ensures var after := AddCategory(s, t, input).state;
      && Text.Trim(input) !in Categories(s, t)
      && (NoOrphans(s) ==> NoOrphans(after))
  {
    var after := AddCategory(s, t, input).state;
    if NoOrphans(s) {
      forall i | 0 <= i < |after.entries|
        ensures after.entries[i].category in Categories(after, after.entries[i].kind)
      {
        var e := after.entries[i];
        assert e.category in Categories(s, e.kind);
        if e.kind == t {
          assert Categories(after, t) == Categories(s, t) + [Text.Trim(input)];
        } else {
          assert e.kind == t.Other();
        }
      }
    }
  }

  /** Entries of type `t` in category `c`: the predicate both chip actions
      filter by. */
  function UsesCategory(t: EntryType, c: string): Entry -> bool
  {
    (e: Entry) => e.kind == t && e.category == c
  }

  /** The number of entries of type `t` in category `c`. */
  function UsedCount(es: seq<Entry>, t: EntryType, c: string): (n: nat)
    ensures n == 0 <==> forall e :: e in es ==> !(e.kind == t && e.category == c)
  {
    var used := Filter(es, UsesCategory(t, c));
    assert forall e :: e in used <==> e in es && e.kind == t && e.category == c;
    assert |used| > 0 ==> used[0] in used;
    |used|
  }

  /** The rename applied to the movements: every entry of type `t` filed
      under `oldName` is refiled under `newName`; all others stay as they are. */
  function RenameInEntries(es: seq<Entry>, t: EntryType, oldName: string, newName: string): (r: seq<Entry>)
    ensures |r| == |es|
    ensures forall i :: 0 <= i < |es| ==>
      r[i] == if es[i].kind == t && es[i].category == oldName then es[i].(category := newName) else es[i]
  {
    if |es| == 0 then []
    else
      var e := es[0];
      var rest := RenameInEntries(es[1..], t, oldName, newName);
      assert forall i :: 1 <= i < |es| ==> es[i] == es[1..][i - 1];
      [if e.kind == t && e.category == oldName then e.(category := newName) else e] + rest
  }

  /** The old name at its own index replaced, when it is listed. */
  function ReplaceName(list: seq<string>, oldName: string, newName: string): (r: seq<string>)
    ensures |r| == |list|
    ensures oldName !in list ==> r == list
    ensures oldName in list ==> r == list[IndexOf(list, oldName) := newName]
  {
    var idx := IndexOf(list, oldName);
    if idx >= 0 then list[idx := newName] else list
  }

  /** The first occurrence of the name removed, when it is listed. */
  function RemoveName(list: seq<string>, name: string): (r: seq<string>)
    ensures name !in list ==> r == list
    ensures name in list ==> |r| == |list| - 1 && multiset(r) == multiset(list) - multiset{name}
    // The names before and after the removed one keep their order.
    ensures name in list ==> r == list[..IndexOf(list, name)] + list[IndexOf(list, name) + 1..]
  {
    var idx := IndexOf(list, name);
    if idx >= 0 then RemoveAt(list, idx) else list
  }

  /** What a category chip's button asks for: the rename, with the
      `prompt` reply (`None` when cancelled), or the deletion. */
  datatype CategoryAction = Rename(reply: Option<string>) | Delete

  /** `handleCategoryAction` on the chip of `category` in the list of type `t`. */
  function CategoryActionStep(s: State, t: EntryType, category: string, action: CategoryAction): (o: Outcome)
    // A chip without a category does nothing.
    ensures category == "" ==> o.Unchanged?
    // Rename: a cancelled, empty or blank reply does nothing.
    ensures category != "" && action.Rename? ==>
      (o.Unchanged? <==> action.reply.None? || Text.Trim(action.reply.value) == "")
    // Rename: another category's name is refused.
    ensures category != "" && action.Rename? ==>
      (o.Rejected? <==> action.reply.Some? && Text.Trim(action.reply.value) != ""
                        && Text.Trim(action.reply.value) in Categories(s, t)
                        && Text.Trim(action.reply.value) != category)
    ensures action.Rename? && o.Rejected? ==> o.error == DuplicateName
    // Rename: the name replaced in place, the entries of that type refiled.
    ensures action.Rename? && o.Changed? ==>
      var newName := Text.Trim(action.reply.value);
      && Categories(o.state, t) == ReplaceName(Categories(s, t), category, newName)
      && Categories(o.state, t.Other()) == Categories(s, t.Other())
      && o.state.entries == RenameInEntries(s.entries, t, category, newName)
    // Delete: refused exactly while an entry of that type uses the category.
    ensures category != "" && action.Delete? ==>
      (o.Rejected? <==> exists e :: e in s.entries && e.kind == t && e.category == category)
    ensures action.Delete? && o.Rejected? ==> o.error == CategoryInUse(UsedCount(s.entries, t, category))
    ensures category != "" && action.Delete? ==> !o.Unchanged?
    // Delete: only that name leaves only that list.
    ensures action.Delete? && o.Changed? ==>
      && Categories(o.state, t) == RemoveName(Categories(s, t), category)
      && Categories(o.state, t.Other()) == Categories(s, t.Other())
      && o.state.entries == s.entries
  {
    if category == "" then Unchanged
    else
      var list := Categories(s, t);
      match action
      case Rename(reply) =>
        if reply.None? || reply.value == "" then Unchanged
        else
          var trimmed := Text.Trim(reply.value);
          if trimmed == "" then Unchanged
          else if trimmed in list && trimmed != category then Rejected(DuplicateName)
          else
            var renamed := WithCategories(s, t, ReplaceName(list, category, trimmed));
            Changed(renamed.(entries := RenameInEntries(s.entries, t, category, trimmed)))
      case Delete =>
        var used := UsedCount(s.entries, t, category);
        if used > 0 then Rejected(CategoryInUse(used))
        else Changed(WithCategories(s, t, RemoveName(list, category)))
  }

  /** Renaming leaves no orphan behind: the old name is gone from the entries
      of that type, every one of them that carried it now carries the new
      one, entries of the other type keep their category even when it has
      the same name, and an orphan-free state stays orphan-free. */
  lemma RenameNoOrphans(s: State, t: EntryType, category: string, reply: string)
    requires CategoryActionStep(s, t, category, Rename(Some(reply))).Changed?
    ensures var after := CategoryActionStep(s, t, category, Rename(Some(reply))).state;
      var newName := Text.Trim(reply);
      && (forall i :: 0 <= i < |s.entries| && s.entries[i].kind == t && s.entries[i].category == category ==>
            after.entries[i].category == newName)
      && (forall i :: 0 <= i < |s.entries| && s.entries[i].kind != t ==> after.entries[i] == s.entries[i])
      && (newName != category ==> UsedCount(after.entries, t, category) == 0)
      && (NoOrphans(s) ==> NoOrphans(after))
  {
    var after := CategoryActionStep(s, t, category, Rename(Some(reply))).state;
    var newName := Text.Trim(reply);
    var list := Categories(s, t);
    var newList := Categories(after, t);
    if newName != category {
      forall e | e in after.entries
        ensures !(e.kind == t && e.category == category)
      {
        var i :| 0 <= i < |after.entries| && after.entries[i] == e;
        assert e == if s.entries[i].kind == t && s.entries[i].category == category
          then s.entries[i].(category := newName) else s.entries[i];
      }
    }
    if NoOrphans(s) {
      forall i | 0 <= i < |after.entries|
        ensures after.entries[i].category in Categories(after, after.entries[i].kind)
      {
        var e := s.entries[i];
        assert e.category in Categories(s, e.kind);
        if e.kind == t {
          var idx := IndexOf(list, category);
          if e.category == category {
            assert idx >= 0 && newList[idx] == newName;
          } else {
            var j := IndexOf(list, e.category);
            assert list[j] == e.category;
            assert j != idx || idx < 0;
            assert newList[j] == e.category;
          }
        } else {
          assert e.kind == t.Other();
        }
      }
    }
  }

  /** Deleting an unused category creates no orphan, and the category is no
      longer listed when the list had it once. */
  lemma DeleteNoOrphans(s: State, t: EntryType, category: string)
    requires CategoryActionStep(s, t, category, Delete).Changed?
    ensures var after := CategoryActionStep(s, t, category, Delete).state;
      && (multiset(Categories(s, t))[category] == 1 ==> category !in Categories(after, t))
      && (NoOrphans(s) ==> NoOrphans(after))
  {
    var after := CategoryActionStep(s, t, category, Delete).state;
    var list := Categories(s, t);
    var newList := Categories(after, t);
    if category in list {
      assert multiset(newList) == multiset(list) - multiset{category};
    }
    if NoOrphans(s) {
      forall i | 0 <= i < |after.entries|
        ensures after.entries[i].category in Categories(after, after.entries[i].kind)
      {
        var e := s.entries[i];
        assert e in s.entries;
        assert e.category in Categories(s, e.kind);
        if e.kind == t {
          assert e.category != category;
          if category in list {
            assert multiset(newList)[e.category] == multiset(list)[e.category];
          }
        } else {
          assert e.kind == t.Other();
        }
      }
    }
  }
}

=== FILE: finance_deletes.dfy ===
/** The bulk deletions: one entry by id, every entry of a batch, and the
    reset actions of the settings panel. Each removes entries with a filter,
    so the survivors keep their order. */
module FinanceDeletes {
  import opened Wrappers
  import opened Seqs
  import opened Finance
  import FinanceQueries
  import FinanceCategories

  /** Entries whose id is not `id`. */
  function NotId(id: string): Entry -> bool
  {
    (e: Entry) => e.id != id
  }

  /** `handleDeleteEntry`: with an entry selected and the deletion
      confirmed, every entry carrying the selected id is removed and the
      state is saved, even when nothing matched; otherwise the handler
      returns early. */
  function DeleteEntry(s: State, selected: Option<string>, confirmed: bool): (o: Outcome)
    ensures !o.Rejected?
    ensures o.Changed? <==> selected.Some? && selected.value != "" && confirmed
    ensures o.Changed? ==>
      forall e :: e in o.state.entries <==> e in s.entries && e.id != selected.value
    // Each surviving entry keeps all its copies.
    ensures o.Changed? ==>
      forall e :: multiset(o.state.entries)[e] == if e.id != selected.value then multiset(s.entries)[e] else 0
    ensures IsSubsequence(o.After(s).entries, s.entries)
    ensures o.After(s).incomeCategories == s.incomeCategories && o.After(s).expenseCategories == s.expenseCategories
  {
    if selected.None? || selected.value == "" || !confirmed then
      SubsequenceReflexive(s.entries);
      Unchanged
    else
      FilterIsSubsequence(s.entries, NotId(selected.value));
      FilterCount(s.entries, NotId(selected.value));
      Changed(s.(entries := Filter(s.entries, NotId(selected.value))))
  }

  /** Entries outside batch `b`. */
  function NotInBatch(b: string): Entry -> bool
  {
    (e: Entry) => e.batchId != Some(b)
  }

  /** `handleDeleteBatch`: for the batch id of the delete button, when some
      entry belongs to it and the deletion is confirmed, every entry of the
      batch is removed and the state saved; otherwise the handler returns
      early. */
  function DeleteBatch(s: State, batchId: string, confirmed: bool): (o: Outcome)
    ensures !o.Rejected?
    ensures o.Changed? <==> batchId != "" && (exists e :: e in s.entries && e.batchId == Some(batchId)) && confirmed
    ensures o.Changed? ==>
      forall e :: e in o.state.entries <==> e in s.entries && e.batchId != Some(batchId)
    ensures o.Changed? ==>
      forall e :: multiset(o.state.entries)[e] == if e.batchId != Some(batchId) then multiset(s.entries)[e] else 0
    // A saved deletion removes at least one entry.
    ensures o.Changed? ==> |o.state.entries| < |s.entries|
    ensures IsSubsequence(o.After(s).entries, s.entries)
    ensures o.After(s).incomeCategories == s.incomeCategories && o.After(s).expenseCategories == s.expenseCategories
  {
    var related := Filter(s.entries, (e: Entry) => e.batchId == Some(batchId));
    if batchId == "" || |related| == 0 || !confirmed then
      SubsequenceReflexive(s.entries);
      Unchanged
    else
      var kept := Filter(s.entries, NotInBatch(batchId));
      FilterIsSubsequence(s.entries, NotInBatch(batchId));
      FilterCount(s.entries, NotInBatch(batchId));
      assert related[0] in s.entries;
      FilterDrops(s.entries, NotInBatch(batchId), related[0]);
      Changed(s.(entries := kept))
  }

  /** The five reset buttons. */
  datatype ResetKind = ResetAll | ResetExpenses | ResetIncomes | ResetExpenseCategories | ResetIncomeCategories

  /** `handleReset(type)`: nothing without confirmation; otherwise everything,
      the entries of one type, or one category list is cleared, and the state
      is saved. */
  function Reset(s: State, kind: ResetKind, confirmed: bool): (o: Outcome)
    ensures !o.Rejected?
    ensures o.Changed? <==> confirmed
    ensures o.Changed? && kind == ResetAll ==> o.state == State([], [], [])
    ensures o.Changed? && (kind == ResetExpenses || kind == ResetIncomes) ==>
      var t := if kind == ResetExpenses then Expense else Income;
      var r := o.state;
      && (forall e :: e in r.entries <==> e in s.entries && e.kind != t)
      && (forall e :: multiset(r.entries)[e] == if e.kind != t then multiset(s.entries)[e] else 0)
      && IsSubsequence(r.entries, s.entries)
      && r.incomeCategories == s.incomeCategories && r.expenseCategories == s.expenseCategories
    ensures o.Changed? && kind == ResetExpenseCategories ==> o.state == s.(expenseCategories := [])
    ensures o.Changed? && kind == ResetIncomeCategories ==> o.state == s.(incomeCategories := [])
  {
    if !confirmed then Unchanged
    else
      match kind
      case ResetAll => Changed(State([], [], []))
      case ResetExpenses =>
        FilterIsSubsequence(s.entries, FinanceQueries.OfType(Income));
        FilterCount(s.entries, FinanceQueries.OfType(Income));
        Changed(s.(entries := Filter(s.entries, FinanceQueries.OfType(Income))))
      case ResetIncomes =>
        FilterIsSubsequence(s.entries, FinanceQueries.OfType(Expense));
        FilterCount(s.entries, FinanceQueries.OfType(Expense));
        Changed(s.(entries := Filter(s.entries, FinanceQueries.OfType(Expense))))
      case ResetExpenseCategories => Changed(s.(expenseCategories := []))
      case ResetIncomeCategories => Changed(s.(incomeCategories := []))
  }

  /** Resetting one type's movements zeroes that type's total, keeps the
      other type's total, which becomes the total of all that is left. */
  lemma ResetTypeTotals(s: State, t: EntryType)
    ensures var r := Reset(s, if t == Expense then ResetExpenses else ResetIncomes, true).state;
      && FinanceQueries.SumByType(r.entries, t) == 0.0
      && FinanceQueries.SumByType(r.entries, t.Other()) == FinanceQueries.SumByType(s.entries, t.Other())
      && Total(r.entries) == FinanceQueries.SumByType(s.entries, t.Other())
  {
    var other := FinanceQueries.OfType(t.Other());
    var r := Reset(s, if t == Expense then ResetExpenses else ResetIncomes, true).state;
    assert r.entries == Filter(s.entries, other);
    FilterIdempotent(s.entries, other);
    FinanceQueries.SumByTypeSplit(r.entries);
  }

  /** Deleting an entry never creates an orphan. */
  lemma DeleteEntryNoOrphans(s: State, selected: Option<string>, confirmed: bool)
    requires FinanceCategories.NoOrphans(s)
    ensures FinanceCategories.NoOrphans(DeleteEntry(s, selected, confirmed).After(s))
  {
    SubsetNoOrphans(s, DeleteEntry(s, selected, confirmed).After(s));
  }

  /** Deleting a batch never creates an orphan. */
  lemma DeleteBatchNoOrphans(s: State, batchId: string, confirmed: bool)
    requires FinanceCategories.NoOrphans(s)
    ensures FinanceCategories.NoOrphans(DeleteBatch(s, batchId, confirmed).After(s))
  {
    SubsetNoOrphans(s, DeleteBatch(s, batchId, confirmed).After(s));
  }

  /** Every reset except clearing a category list keeps an orphan-free state
      orphan-free. */
  lemma ResetNoOrphans(s: State, kind: ResetKind, confirmed: bool)
    requires FinanceCategories.NoOrphans(s)
    requires kind != ResetExpenseCategories && kind != ResetIncomeCategories
    ensures FinanceCategories.NoOrphans(Reset(s, kind, confirmed).After(s))
  {
    SubsetNoOrphans(s, Reset(s, kind, confirmed).After(s));
  }

  /** A state whose entries all come from an orphan-free state with the same
      category lists is orphan-free. */
  lemma SubsetNoOrphans(s: State, r: State)
    requires FinanceCategories.NoOrphans(s)
    requires forall e :: e in r.entries ==> e in s.entries
    requires (r.incomeCategories == s.incomeCategories && r.expenseCategories == s.expenseCategories) || r.entries == []
    ensures FinanceCategories.NoOrphans(r)
  {
    forall i | 0 <= i < |r.entries|
      ensures r.entries[i].category in Categories(r, r.entries[i].kind)
    {
      var e := r.entries[i];
      assert e in s.entries;
      var j :| 0 <= j < |s.entries| && s.entries[j] == e;
      assert e.category in Categories(s, e.kind);
    }
  }

  /** Clearing a category list, unlike every other action, can leave
      orphans: an expense filed under a listed category loses it. */
  lemma ResetCategoriesLeavesOrphans(s: State, e: Entry)
    requires e in s.entries && e.kind == Expense
    ensures !FinanceCategories.NoOrphans(Reset(s, ResetExpenseCategories, true).state)
  {
    var r := Reset(s, ResetExpenseCategories, true).state;
    var i :| 0 <= i < |r.entries| && r.entries[i] == e;
    assert Categories(r, Expense) == [];
  }
}

=== FILE: finance_entries.dfy ===
/** `addEntriesFromForm`: validation of the movement form and its expansion
    into one entry, a monthly repetition or a series of instalments, all
    sharing one batch id. */
module FinanceEntries {
  import opened Wrappers
  import Text
  import opened Finance
  import FinanceCategories

  /** The `repeat` select: `none`, `monthly`, `installments`, or any other
      value, for which no entry is built. */
  datatype Repeat = NoRepeat | Monthly | Installments | OtherRepeat

  /** The submitted form fields as strings, except `amount`, already passed
      through `Number` (`None` for `NaN`), and `repeatCount`, the number the
      field holds (1 when the field is empty). A missing date or category is
      the empty string. */
  datatype EntryForm = EntryForm(
    description: string,
    amount: Option<real>,
    date: string,
    category: string,
    repeat: Repeat,
    repeatCount: int,
    batch: string,
    notes: string)

  /** What the handler draws from its host: the date `i` months after a
      form date (`toInputDate(shiftMonths(baseDate, i))`), the id of the
      `k`-th entry created (`crypto.randomUUID()`), and the id a new batch
      gets (`generateBatchId()`). */
  datatype Env = Env(shiftMonths: (string, nat) -> string, ids: nat -> string, freshBatch: string)

  /** The required fields are filled in: a description that is not blank, a
      non-zero number as amount, a date and a category. */
  predicate Complete(f: EntryForm)
  {
    Text.Trim(f.description) != "" && f.amount.Some? && f.amount.value != 0.0 && f.date != "" && f.category != ""
  }

  /** `Math.max(1, repeatCount)`. */
  function RepeatCount(f: EntryForm): (n: nat)
    ensures n >= 1 && n >= f.repeatCount
    ensures n == 1 || n == f.repeatCount
  {
    if f.repeatCount > 1 then f.repeatCount else 1
  }

  /** `batch || (repeat !== 'none' ? generateBatchId() : '')`. */
  function BatchIdFor(f: EntryForm, env: Env): string
  {
    var batch := Text.Trim(f.batch);
    if batch != "" then batch else if f.repeat != NoRepeat then env.freshBatch else ""
  }

  /** The note of the `i`-th monthly repetition: "Repetición i+1/n". */
  function RepetitionNote(i: nat, n: nat): string
  {
    "Repetición " + Text.NatToString(i + 1) + "/" + Text.NatToString(n)
  }

  /** What the `i`-th of `n` instalments appends to the description:
      " (cuota i+1/n)". */
  function InstallmentSuffix(i: nat, n: nat): string
  {
    " (cuota " + Text.NatToString(i + 1) + "/" + Text.NatToString(n) + ")"
  }

  /** The description of the `i`-th entry: the trimmed description, with the
      instalment's place appended in instalment mode. */
  function EntryDescription(f: EntryForm, i: nat): string
  {
    var description := Text.Trim(f.description);
    if f.repeat == Installments then description + InstallmentSuffix(i, RepeatCount(f)) else description
  }

  /** The amount of every entry: the `n`-th part in instalment mode, the
      full amount otherwise. */
  function EntryAmount(f: EntryForm): real
    requires f.amount.Some?
  {
    if f.repeat == Installments then f.amount.value / RepeatCount(f) as real else f.amount.value
  }

  /** The date of the `i`-th entry: `i` months after the form date in the
      repeated modes, the form date itself for a single entry. */
  function EntryDate(f: EntryForm, env: Env, i: nat): string
  {
    if f.repeat == Monthly || f.repeat == Installments then env.shiftMonths(f.date, i) else f.date
  }

  /** The notes of the `i`-th entry: the trimmed notes, annotated with the
      repetition or with "Cuotas" in the repeated modes. */
  function EntryNotes(f: EntryForm, i: nat): string
  {
    var notes := Text.Trim(f.notes);
    match f.repeat
    case Monthly => Annotate(notes, RepetitionNote(i, RepeatCount(f)))
    case Installments => Annotate(notes, "Cuotas")
    case _ => notes
  }

  /** `createEntry` for the `i`-th entry of the form's expansion. */
  function MakeEntry(t: EntryType, f: EntryForm, env: Env, i: nat): Entry
    requires f.amount.Some?
  {
    Entry(env.ids(i), t, EntryDescription(f, i), EntryAmount(f), EntryDate(f, env, i), f.category,
          EntryNotes(f, i), Some(BatchIdFor(f, env)))
  }

  /** How many entries the form expands into. */
  function ExpansionSize(f: EntryForm): nat
  {
    match f.repeat
    case NoRepeat => 1
    case Monthly => RepeatCount(f)
    case Installments => RepeatCount(f)
    case OtherRepeat => 0
  }

  /** Entries `0 .. k - 1` of the expansion, in loop order. */
  function Expansion(t: EntryType, f: EntryForm, env: Env, k: nat): (r: seq<Entry>)
    requires f.amount.Some?
    ensures |r| == k
    ensures forall i :: 0 <= i < k ==> r[i] == MakeEntry(t, f, env, i)
  {
    if k == 0 then [] else Expansion(t, f, env, k - 1) + [MakeEntry(t, f, env, k - 1)]
  }

  /** `entriesToAdd` of a complete form. */
  function NewEntries(t: EntryType, f: EntryForm, env: Env): (r: seq<Entry>)
    requires f.amount.Some?
    ensures |r| == ExpansionSize(f)
  {
    Expansion(t, f, env, ExpansionSize(f))
  }

  /** The form passes both checks of the handler: complete, and its category
      listed for the type. */
  predicate Accepted(s: State, t: EntryType, f: EntryForm)
  {
    Complete(f) && f.category in Categories(s, t)
  }

  /** `addEntriesFromForm(form, type)`: a form with a missing field or a
      category not listed for the type is refused; otherwise its expansion is
      appended to the entries, sharing one batch id. */
  function AddEntries(s: State, t: EntryType, f: EntryForm, env: Env): (o: Outcome)
    ensures !o.Unchanged?
    ensures o == Rejected(MissingFields) <==> !Complete(f)
    ensures o == Rejected(InvalidCategory) <==> Complete(f) && f.category !in Categories(s, t)
    ensures o.Changed? ==> |o.state.entries| == |s.entries| + ExpansionSize(f)
    ensures o.Changed? ==>
      var added := o.state.entries[|s.entries|..];
      && o.state.entries[..|s.entries|] == s.entries
      && o.state.incomeCategories == s.incomeCategories
      && o.state.expenseCategories == s.expenseCategories
      && (forall i :: 0 <= i < |added| ==>
            && added[i].kind == t
            && added[i].category == f.category
            && added[i].category in Categories(s, t)
            && added[i].batchId == Some(BatchIdFor(f, env))
            && added[i].id == env.ids(i))
  {
    if !Complete(f) then Rejected(MissingFields)
    else if f.category !in Categories(s, t) then Rejected(InvalidCategory)
    else
      var added := NewEntries(t, f, env);
      var all := s.entries + added;
      assert all[|s.entries|..] == added;
      assert all[..|s.entries|] == s.entries;
      Changed(s.(entries := all))
  }

  /** Only a complete form with a listed category is accepted, and a repeated
      form yields exactly `max(1, repeatCount)` entries. */
  lemma AddEntriesCount(s: State, t: EntryType, f: EntryForm, env: Env)
    ensures AddEntries(s, t, f, env).Changed? <==> Accepted(s, t, f)
    ensures AddEntries(s, t, f, env).Changed? && f.repeat != NoRepeat && f.repeat != OtherRepeat ==>
      |AddEntries(s, t, f, env).state.entries| == |s.entries| + RepeatCount(f)
      && (f.repeatCount >= 1 ==> RepeatCount(f) == f.repeatCount)
  {
  }

  /** The batch id every new entry shares: the trimmed batch typed in the form
      when there is one, otherwise a fresh id for a repeated form and the empty
      id for a single one. */
  lemma BatchPrecedence(s: State, t: EntryType, f: EntryForm, env: Env, i: nat)
    requires Accepted(s, t, f)
    requires i < ExpansionSize(f)
    ensures var e := AddEntries(s, t, f, env).state.entries[|s.entries| + i];
      && (Text.Trim(f.batch) != "" ==> e.batchId == Some(Text.Trim(f.batch)))
      && (Text.Trim(f.batch) == "" && f.repeat != NoRepeat ==> e.batchId == Some(env.freshBatch))
      && (Text.Trim(f.batch) == "" && f.repeat == NoRepeat ==> e.batchId == Some(""))
  {
    var all := AddEntries(s, t, f, env).state.entries;
    assert all[|s.entries| + i] == all[|s.entries|..][i];
  }

  /** A form without repetition adds one entry: the trimmed description, the
      amount as typed, the form date, the trimmed notes, and the trimmed
      batch typed in (empty when none was). */
  lemma SingleShape(s: State, t: EntryType, f: EntryForm, env: Env)
    requires Accepted(s, t, f) && f.repeat == NoRepeat
    ensures var all := AddEntries(s, t, f, env).state.entries;
      && |all| == |s.entries| + 1
      && all[|s.entries|] == Entry(env.ids(0), t, Text.Trim(f.description), f.amount.value, f.date,
                                   f.category, Text.Trim(f.notes), Some(Text.Trim(f.batch)))
  {
    var all := AddEntries(s, t, f, env).state.entries;
    assert all[|s.entries|] == all[|s.entries|..][0];
  }

  /** The `i`-th of `n` instalments: its description names its place in the
      series after the original description, its amount is the `n`-th part,
      and its date is `i` months after the form date. (That the parts add
      back up to the amount is `InstallmentsTotal`.) */
  lemma InstallmentShape(s: State, t: EntryType, f: EntryForm, env: Env, i: nat)
    requires Accepted(s, t, f) && f.repeat == Installments
    requires i < RepeatCount(f)
    ensures var e := AddEntries(s, t, f, env).state.entries[|s.entries| + i];
      var d := Text.Trim(f.description);
      && e.description == d + InstallmentSuffix(i, RepeatCount(f))
      && InstallmentSuffix(i, RepeatCount(f))
         == " (cuota " + Text.NatToString(i + 1) + "/" + Text.NatToString(RepeatCount(f)) + ")"
      && e.description[..|d|] == d
      && e.amount == f.amount.value / RepeatCount(f) as real
      && e.date == env.shiftMonths(f.date, i)
      && e.notes == Annotate(Text.Trim(f.notes), "Cuotas")
  {
    AddedEntryAt(s, t, f, env, i);
    var d := Text.Trim(f.description);
    var e := MakeEntry(t, f, env, i);
    assert e.description == d + InstallmentSuffix(i, RepeatCount(f));
    assert e.description[..|d|] == d;
  }

  /** Entry `i` after the kept ones is the `i`-th entry of the expansion. */
  lemma AddedEntryAt(s: State, t: EntryType, f: EntryForm, env: Env, i: nat)
    requires Accepted(s, t, f)
    requires i < ExpansionSize(f)
    ensures AddEntries(s, t, f, env).state.entries[|s.entries| + i] == MakeEntry(t, f, env, i)
  {
    var all := AddEntries(s, t, f, env).state.entries;
    var added := NewEntries(t, f, env);
    assert all == s.entries + added;
    assert all[|s.entries| + i] == added[i];
  }

  /** The `i`-th of `n` monthly repetitions: the full amount, the date `i`
      months on, and the note "Repetición i+1/n" after the form's notes. */
  lemma MonthlyShape(s: State, t: EntryType, f: EntryForm, env: Env, i: nat)
    requires Accepted(s, t, f) && f.repeat == Monthly
    requires i < RepeatCount(f)
    ensures var e := AddEntries(s, t, f, env).state.entries[|s.entries| + i];
      && e.description == Text.Trim(f.description)
      && e.amount == f.amount.value
      && e.date == env.shiftMonths(f.date, i)
      && e.notes == Annotate(Text.Trim(f.notes), "Repetición " + Text.NatToString(i + 1) + "/" + Text.NatToString(RepeatCount(f)))
  {
    var all := AddEntries(s, t, f, env).state.entries;
    assert all[|s.entries| + i] == all[|s.entries|..][i];
  }

  /** Entries that all carry the amount `a` total `|es|` times `a`. */
  lemma {:induction false} TotalOfEqualAmounts(es: seq<Entry>, n: nat, a: real)
    requires |es| == n
    requires forall i :: 0 <= i < |es| ==> es[i].amount == a
    ensures Total(es) == n as real * a
  {
    if n > 0 {
      var prev := es[..n - 1];
      assert forall i :: 0 <= i < |prev| ==> prev[i].amount == a;
      TotalOfEqualAmounts(prev, n - 1, a);
      var sum := Total(prev);
      assert Total(es) == sum + es[n - 1].amount;
      OneMore(n - 1, a, sum);
    } else {
      ZeroTimes(a);
    }
  }

  /** `0 * a == 0`. */
  lemma ZeroTimes(a: real)
    ensures 0 as real * a == 0.0
  {
  }

  /** `k * a + a == (k + 1) * a`. */
  lemma OneMore(k: nat, a: real, sum: real)
    requires sum == k as real * a
    ensures sum + a == (k + 1) as real * a
  {
  }

  /** `n * (x / n) == x`. */
  lemma DivMul(x: real, n: nat, part: real, sum: real)
    requires n > 0 && part == x / n as real && sum == n as real * part
    ensures sum == x
  {
  }

  /** `n` entries carrying `x / n` each total `x`. */
  lemma PartsAddUp(es: seq<Entry>, n: nat, part: real, x: real)
    requires n > 0 && |es| == n && part == x / n as real
    requires forall i :: 0 <= i < |es| ==> es[i].amount == part
    ensures Total(es) == x
  {
    TotalOfEqualAmounts(es, n, part);
    DivMul(x, n, part, Total(es));
  }

  /** Instalments add back up to the amount typed in. */
  lemma InstallmentsTotal(s: State, t: EntryType, f: EntryForm, env: Env)
    requires Accepted(s, t, f) && f.repeat == Installments
    ensures Total(AddEntries(s, t, f, env).state.entries) == Total(s.entries) + f.amount.value
  {
    var all := AddEntries(s, t, f, env).state.entries;
    var added := NewEntries(t, f, env);
    assert all == s.entries + added;
    assert forall i :: 0 <= i < |added| ==> added[i] == MakeEntry(t, f, env, i);
    TotalConcat(s.entries, added);
    PartsAddUp(added, RepeatCount(f), EntryAmount(f), f.amount.value);
  }

  /** Adding movements creates no orphan: each new entry's category is
      listed for its type. */
  lemma AddEntriesNoOrphans(s: State, t: EntryType, f: EntryForm, env: Env)
    requires Accepted(s, t, f)
    requires FinanceCategories.NoOrphans(s)
    ensures FinanceCategories.NoOrphans(AddEntries(s, t, f, env).state)
  {
    var added := NewEntries(t, f, env);
    assert AddEntries(s, t, f, env).state == s.(entries := s.entries + added);
    assert forall j :: 0 <= j < |added| ==> added[j] == MakeEntry(t, f, env, j);
    AppendNoOrphans(s, t, added);
  }

  /** Appending entries of type `t` filed under listed categories keeps an
      orphan-free state orphan-free. */
  lemma AppendNoOrphans(s: State, t: EntryType, added: seq<Entry>)
    requires FinanceCategories.NoOrphans(s)
    requires forall j :: 0 <= j < |added| ==> added[j].kind == t && added[j].category in Categories(s, t)
    ensures FinanceCategories.NoOrphans(s.(entries := s.entries + added))
  {
    var after := s.(entries := s.entries + added);
    var n := |s.entries|;
    forall i | 0 <= i < |after.entries|
      ensures after.entries[i].category in Categories(after, after.entries[i].kind)
    {
      if i < n {
        assert after.entries[i] == s.entries[i];
      } else {
        assert after.entries[i] == added[i - n];
      }
    }
  }
}

=== FILE: finance_queries.dfy ===
/** The read-only queries over the movements: the search filter, the
    per-category and per-type sums, and the grouping by month. */
module FinanceQueries {
  import opened Seqs
  import Text
  import opened Finance

  /** The search form: free text, an optional date window `[from, to]` and
      an optional category; an empty field does not filter. */
  datatype SearchQuery = SearchQuery(text: string, from: string, to: string, category: string)

  /** The predicate `handleSearch` filters with: the lower-cased text occurs
      in the lower-cased description or notes, the category is the one asked
      for, and the date string lies in the window by string comparison. */
  predicate Matches(q: SearchQuery, e: Entry)
  {
    var needle := Text.ToLower(q.text);
    && (needle == "" || Text.Contains(Text.ToLower(e.description), needle)
                     || Text.Contains(Text.ToLower(e.notes), needle))
    && (q.category == "" || e.category == q.category)
    && (q.from == "" || Text.LessEq(q.from, e.date))
    && (q.to == "" || Text.LessEq(e.date, q.to))
  }

  function Matcher(q: SearchQuery): Entry -> bool
  {
    (e: Entry) => Matches(q, e)
  }

  /** `state.entries.filter(...)`: exactly the matching entries, in their
      stored order. */
  function Search(es: seq<Entry>, q: SearchQuery): (r: seq<Entry>)
    ensures forall e :: e in r <==> e in es && Matches(q, e)
    ensures forall e :: multiset(r)[e] == if Matches(q, e) then multiset(es)[e] else 0
    ensures IsSubsequence(r, es)
  {
    FilterIsSubsequence(es, Matcher(q));
    FilterCount(es, Matcher(q));
    Filter(es, Matcher(q))
  }

  /** A blank search returns every entry, in order. */
  lemma SearchBlankAcceptsAll(es: seq<Entry>)
    ensures Search(es, SearchQuery("", "", "", "")) == es
  {
    var q := SearchQuery("", "", "", "");
    assert forall i :: 0 <= i < |es| ==> Matches(q, es[i]);
    FilterAllOrNone(es, Matcher(q));
  }

  /** Every result lies in the date window and carries the category asked
      for, and a text search ignores the case of the text typed. */
  lemma SearchCriteria(es: seq<Entry>, q: SearchQuery)
    ensures forall e :: e in Search(es, q) && q.from != "" ==> Text.LessEq(q.from, e.date)
    ensures forall e :: e in Search(es, q) && q.to != "" ==> Text.LessEq(e.date, q.to)
    ensures forall e :: e in Search(es, q) && q.category != "" ==> e.category == q.category
    ensures Search(es, q.(text := Text.ToLower(q.text))) == Search(es, q)
  {
    var lq := q.(text := Text.ToLower(q.text));
    Text.ToLowerIdempotent(q.text);
    assert forall e :: Matcher(lq)(e) == Matcher(q)(e);
    FilterSamePredicate(es, Matcher(lq), Matcher(q));
  }

  /** Entries of type `t`. */
  function OfType(t: EntryType): Entry -> bool
  {
    (e: Entry) => e.kind == t
  }

  /** `sumByType(list, type)`: the total of the entries of that type, that is
      `Total(Filter(es, OfType(t)))`, the fold `Total` over the entries kept
      by `OfType(t)`. */
  function SumByType(es: seq<Entry>, t: EntryType): (r: real)
    ensures (forall e :: e in es ==> e.kind != t) ==> r == 0.0
  {
    var sel := Filter(es, OfType(t));
    assert |sel| > 0 ==> sel[0] in sel;
    Total(sel)
  }

  /** The income total and the expense total make up the total of all
      entries: every entry counts for exactly one type. */
  lemma {:induction false} SumByTypeSplit(es: seq<Entry>)
    ensures SumByType(es, Income) + SumByType(es, Expense) == Total(es)
  {
    if |es| > 0 {
      var e := es[0];
      var rest := es[1..];
      assert es == [e] + rest;
      SumByTypeSplit(rest);
      FilterConcat([e], rest, OfType(Income));
      FilterConcat([e], rest, OfType(Expense));
      TotalConcat([e], rest);
      TotalConcat(Filter([e], OfType(Income)), Filter(rest, OfType(Income)));
      TotalConcat(Filter([e], OfType(Expense)), Filter(rest, OfType(Expense)));
      assert Total([e]) == e.amount;
    }
  }

  /** Entries filed under category `c`. */
  function InCategory(c: string): Entry -> bool
  {
    (e: Entry) => e.category == c
  }

  /** The categories the entries use. */
  function UsedCategories(es: seq<Entry>): set<string>
  {
    set e | e in es :: e.category
  }

  /** `sumByCategory(entries)`: the fold that adds each amount to its
      category's running sum, starting a category at 0. */
  function SumByCategory(es: seq<Entry>): (m: map<string, real>)
    ensures m.Keys == UsedCategories(es)
  {
    if |es| == 0 then map[]
    else
      var prev := es[..|es| - 1];
      var e := es[|es| - 1];
      var acc := SumByCategory(prev);
      assert es == prev + [e];
      acc[e.category := (if e.category in acc then acc[e.category] else 0.0) + e.amount]
  }

  /** Each category present maps to the total of exactly the entries filed
      under it. */
  lemma {:induction false} SumByCategoryTotals(es: seq<Entry>)
    ensures forall c :: c in SumByCategory(es) ==> SumByCategory(es)[c] == Total(Filter(es, InCategory(c)))
  {
    if |es| > 0 {
      var prev := es[..|es| - 1];
      var e := es[|es| - 1];
      assert es == prev + [e];
      SumByCategoryTotals(prev);
      var acc := SumByCategory(prev);
      var m := SumByCategory(es);
      forall c | c in m
        ensures m[c] == Total(Filter(es, InCategory(c)))
      {
        FilterConcat(prev, [e], InCategory(c));
        TotalConcat(Filter(prev, InCategory(c)), Filter([e], InCategory(c)));
        if c == e.category {
          assert Filter([e], InCategory(c)) == [e];
          assert Total([e]) == e.amount;
          if c !in acc {
            NoneFiltered(prev, c);
          }
        } else {
          assert Filter([e], InCategory(c)) == [];
        }
      }
    }
  }

  /** `Object.keys(sumByCategory(entries))`, the ranking chart's labels:
      each used category once, in the order the fold first met it. */
  function CategoryKeys(es: seq<Entry>): (ks: seq<string>)
    ensures forall c :: c in ks <==> c in UsedCategories(es)
    ensures forall i, j :: 0 <= i < j < |ks| ==> ks[i] != ks[j]
  {
    if |es| == 0 then []
    else
      var prev := es[..|es| - 1];
      var e := es[|es| - 1];
      var acc := CategoryKeys(prev);
      assert es == prev + [e];
      if e.category in acc then acc else acc + [e.category]
  }

  /** Keys are only ever appended: the keys of a prefix of the entries are a
      prefix of the keys of all of them, so the keys are in order of first
      appearance. */
  lemma {:induction false} CategoryKeysPrefix(es: seq<Entry>, n: nat)
    requires n <= |es|
    ensures CategoryKeys(es[..n]) <= CategoryKeys(es)
  {
    if n < |es| {
      var prev := es[..|es| - 1];
      assert prev[..n] == es[..n];
      CategoryKeysPrefix(prev, n);
    } else {
      assert es[..n] == es;
    }
  }

  /** `Object.values(sumByCategory(entries))`, the ranking chart's data:
      value `i` is the total of the entries filed under label `i`. */
  function RankValues(es: seq<Entry>): (vs: seq<real>)
    ensures |vs| == |CategoryKeys(es)|
    ensures forall i :: 0 <= i < |vs| ==> vs[i] == Total(Filter(es, InCategory(CategoryKeys(es)[i])))
  {
    var ks := CategoryKeys(es);
    var m := SumByCategory(es);
    SumByCategoryTotals(es);
    seq(|ks|, i requires 0 <= i < |ks| => m[ks[i]])
  }

  /** A category no entry uses selects nothing. */
  lemma NoneFiltered(es: seq<Entry>, c: string)
    requires c !in UsedCategories(es)
    ensures Filter(es, InCategory(c)) == []
  {
  }

  /** `entry.date.slice(0, 7)`: the `YYYY-MM` part of an ISO date, or the
      whole date when it is shorter. */
  function MonthKey(date: string): (k: string)
    ensures Text.IsPrefix(k, date)
    ensures |k| == if |date| < 7 then |date| else 7
  {
    if |date| < 7 then date else date[..7]
  }

  /** Entries dated in month `k`. */
  function InMonth(k: string): Entry -> bool
  {
    (e: Entry) => MonthKey(e.date) == k
  }

  /** The months the entries fall in. */
  function UsedMonths(es: seq<Entry>): set<string>
  {
    set e | e in es :: MonthKey(e.date)
  }

  /** `groupByMonth(entries)`: the fold that appends each entry to its
      month's bucket, opening a bucket for a new month. */
  function GroupByMonth(es: seq<Entry>): (m: map<string, seq<Entry>>)
    ensures m.Keys == UsedMonths(es)
  {
    if |es| == 0 then map[]
    else
      var prev := es[..|es| - 1];
      var e := es[|es| - 1];
      var acc := GroupByMonth(prev);
      var k := MonthKey(e.date);
      assert es == prev + [e];
      acc[k := (if k in acc then acc[k] else []) + [e]]
  }

  /** Each bucket holds exactly the entries of its month, in their stored
      order. */
  lemma {:induction false} GroupByMonthBuckets(es: seq<Entry>)
    ensures forall k :: k in GroupByMonth(es) ==> GroupByMonth(es)[k] == Filter(es, InMonth(k))
  {
    if |es| > 0 {
      var prev := es[..|es| - 1];
      var e := es[|es| - 1];
      assert es == prev + [e];
      GroupByMonthBuckets(prev);
      var acc := GroupByMonth(prev);
      var m := GroupByMonth(es);
      forall k | k in m
        ensures m[k] == Filter(es, InMonth(k))
      {
        FilterConcat(prev, [e], InMonth(k));
        if k == MonthKey(e.date) {
          assert Filter([e], InMonth(k)) == [e];
          if k !in acc {
            NoneInMonth(prev, k);
          }
        } else {
          assert Filter([e], InMonth(k)) == [];
        }
      }
    }
  }

  /** A month no entry falls in selects nothing. */
  lemma NoneInMonth(es: seq<Entry>, k: string)
    requires k !in UsedMonths(es)
    ensures Filter(es, InMonth(k)) == []
  {
  }

  /** The grouping is a partition: every entry is in the bucket of its own
      month and in no other, and buckets keep the stored order. */
  lemma GroupByMonthPartition(es: seq<Entry>, e: Entry, k: string)
    requires k in GroupByMonth(es)
    ensures e in GroupByMonth(es)[k] <==> e in es && MonthKey(e.date) == k
    ensures IsSubsequence(GroupByMonth(es)[k], es)
    ensures e in es ==> MonthKey(e.date) in GroupByMonth(es)
  {
    GroupByMonthBuckets(es);
    FilterIsSubsequence(es, InMonth(k));
  }
}

=== FILE: finance_refresh.dfy ===
/** The re-render that follows every saved change. `refreshUI` hands the
    stored array `state.entries` itself to `renderSearchResults`, which sorts
    it in place, newest date first, before listing it. So after every handler
    that saves, the stored entries are in that order. `Array.prototype.sort`
    is stable, and ISO dates (`YYYY-MM-DD`) compare as dates exactly when they
    compare as strings, so the sort is modelled as a stable insertion sort on
    the date strings. */
module FinanceRefresh {
  import opened Seqs
  import Text
  import opened Finance
  import FinanceCategories

  /** No entry is dated before an entry after it. */
  predicate NewestFirst(es: seq<Entry>)
  {
    forall i, j :: 0 <= i < j < |es| ==> Text.LessEq(es[j].date, es[i].date)
  }

  /** Where `x` goes in a newest-first list: after every entry that is not
      older than it. */
  function InsertPos(x: Entry, r: seq<Entry>): (k: nat)
    ensures k <= |r|
    ensures forall i :: 0 <= i < k ==> Text.LessEq(x.date, r[i].date)
    ensures k < |r| ==> !Text.LessEq(x.date, r[k].date)
  {
    if |r| == 0 || !Text.LessEq(x.date, r[0].date) then 0
    else
      var k := InsertPos(x, r[1..]);
      assert forall i :: 1 <= i < |r| ==> r[i] == r[1..][i - 1];
      1 + k
  }

  /** In a newest-first list, everything from `x`'s position on is strictly
      older than `x`. */
  lemma OlderAfter(x: Entry, r: seq<Entry>)
    requires NewestFirst(r)
    ensures forall j :: InsertPos(x, r) <= j < |r| ==>
      Text.LessEq(r[j].date, x.date) && r[j].date != x.date
  {
    var k := InsertPos(x, r);
    forall j | k <= j < |r|
      ensures Text.LessEq(r[j].date, x.date) && r[j].date != x.date
    {
      if Text.LessEq(x.date, r[j].date) {
        Text.LessEqTransitive(x.date, r[j].date, r[k].date);
      }
      Text.LessEqTotal(x.date, r[j].date);
      if r[j].date == x.date {
        Text.LessEqReflexive(x.date);
      }
    }
  }

  /** `x` placed into a newest-first list after every entry not older than it. */
  function Insert(x: Entry, r: seq<Entry>): (q: seq<Entry>)
    requires NewestFirst(r)
    ensures |q| == |r| + 1
    ensures multiset(q) == multiset(r) + multiset{x}
    ensures NewestFirst(q)
  {
    var k := InsertPos(x, r);
    assert r == r[..k] + r[k..];
    InsertSorted(x, r);
    r[..k] + [x] + r[k..]
  }

  /** The list built by `Insert` is newest first. */
  lemma InsertSorted(x: Entry, r: seq<Entry>)
    requires NewestFirst(r)
    ensures NewestFirst(r[..InsertPos(x, r)] + [x] + r[InsertPos(x, r)..])
  {
    var k := InsertPos(x, r);
    var q := r[..k] + [x] + r[k..];
    OlderAfter(x, r);
    forall i, j | 0 <= i < j < |q|
      ensures Text.LessEq(q[j].date, q[i].date)
    {
      if j < k {
        assert q[i] == r[i] && q[j] == r[j];
      } else if j == k {
        assert q[i] == r[i] && q[j] == x;
      } else if i == k {
        assert q[j] == r[j - 1];
      } else if i < k {
        assert q[i] == r[i] && q[j] == r[j - 1];
      } else {
        assert q[i] == r[i - 1] && q[j] == r[j - 1];
      }
    }
  }

  /** `list.sort((a, b) => new Date(b.date) - new Date(a.date))`: the same
      entries, newest first. */
  function SortByDate(es: seq<Entry>): (r: seq<Entry>)
    ensures NewestFirst(r)
    ensures multiset(r) == multiset(es)
  {
    if |es| == 0 then []
    else
      var prev := es[..|es| - 1];
      assert es == prev + [es[|es| - 1]];
      Insert(es[|es| - 1], SortByDate(prev))
  }

  /** The entries dated `d`, in their order in `es`. */
  function OfDate(es: seq<Entry>, d: string): (r: seq<Entry>)
    ensures |r| <= |es|
    ensures forall i :: 0 <= i < |r| ==> r[i].date == d
  {
    if |es| == 0 then []
    else (if es[0].date == d then [es[0]] else []) + OfDate(es[1..], d)
  }

  /** Picking one date out of a concatenation picks it out of each side. */
  lemma {:induction false} OfDateConcat(a: seq<Entry>, b: seq<Entry>, d: string)
    ensures OfDate(a + b, d) == OfDate(a, d) + OfDate(b, d)
  {
    if |a| == 0 {
      assert a + b == b;
    } else {
      assert (a + b)[1..] == a[1..] + b;
      OfDateConcat(a[1..], b, d);
    }
  }

  /** A run holding no entry of date `d` contributes nothing. */
  lemma {:induction false} OfDateNone(b: seq<Entry>, d: string)
    requires forall i :: 0 <= i < |b| ==> b[i].date != d
    ensures OfDate(b, d) == []
  {
    if |b| > 0 {
      assert forall i :: 0 <= i < |b[1..]| ==> b[1..][i] == b[i + 1];
      OfDateNone(b[1..], d);
    }
  }

  /** No entry of `x`'s own date comes after `x`'s position. */
  lemma NoneOfSameDateAfter(x: Entry, r: seq<Entry>)
    requires NewestFirst(r)
    ensures forall j :: InsertPos(x, r) <= j < |r| ==> r[j].date != x.date
  {
    OlderAfter(x, r);
  }

  /** Splicing `x` in front of a run holding none of its date appends it to
      its own date and leaves every other date alone. */
  lemma {:induction false} SpliceStable(a: seq<Entry>, x: Entry, b: seq<Entry>, d: string)
    requires forall i :: 0 <= i < |b| ==> b[i].date != x.date
    ensures OfDate(a + [x] + b, d) == OfDate(a + b, d) + (if x.date == d then [x] else [])
  {
    OfDateConcat(a + [x], b, d);
    OfDateConcat(a, [x], d);
    OfDateConcat(a, b, d);
    assert [x][1..] == [];
    if x.date == d {
      OfDateNone(b, d);
    }
  }

  /** Inserting `x` puts it after every entry of its own date and disturbs no
      other date. */
  lemma InsertStable(x: Entry, r: seq<Entry>, d: string)
    requires NewestFirst(r)
    ensures OfDate(Insert(x, r), d) == OfDate(r, d) + (if x.date == d then [x] else [])
  {
    var k := InsertPos(x, r);
    var a, b := r[..k], r[k..];
    NoneOfSameDateAfter(x, r);
    assert forall i :: 0 <= i < |b| ==> b[i] == r[k + i];
    SpliceStable(a, x, b, d);
    assert a + b == r;
  }

  /** One insertion step of the sort keeps every date's entries in order. */
  lemma StableStep(prev: seq<Entry>, x: Entry, sorted: seq<Entry>, next: seq<Entry>, d: string)
    requires OfDate(sorted, d) == OfDate(prev, d)
    requires OfDate(next, d) == OfDate(sorted, d) + (if x.date == d then [x] else [])
    ensures OfDate(next, d) == OfDate(prev + [x], d)
  {
    OfDateConcat(prev, [x], d);
    assert [x][1..] == [];
  }

  /** The sort is stable: the entries of any one date keep their relative
      order. */
  lemma {:induction false} SortStable(es: seq<Entry>, d: string)
    ensures OfDate(SortByDate(es), d) == OfDate(es, d)
  {
    if |es| > 0 {
      var prev := es[..|es| - 1];
      var x := es[|es| - 1];
      assert es == prev + [x];
      var sorted := SortByDate(prev);
      SortStable(prev, d);
      InsertStable(x, sorted, d);
      StableStep(prev, x, sorted, Insert(x, sorted), d);
    }
  }

  /** A list already newest first is left as it is, so sorting is
      idempotent. */
  lemma {:induction false} SortKeepsSorted(es: seq<Entry>)
    requires NewestFirst(es)
    ensures SortByDate(es) == es
  {
    if |es| > 0 {
      var prev := es[..|es| - 1];
      var x := es[|es| - 1];
      assert es == prev + [x];
      assert NewestFirst(prev);
      SortKeepsSorted(prev);
      var k := InsertPos(x, prev);
      assert k == |prev|;
      assert prev[..k] == prev && prev[k..] == [];
    }
  }

  /** Inserting an entry adds its amount to the total. */
  lemma InsertTotal(x: Entry, r: seq<Entry>)
    requires NewestFirst(r)
    ensures Total(Insert(x, r)) == Total(r) + x.amount
  {
    var k := InsertPos(x, r);
    TotalConcat(r[..k] + [x], r[k..]);
    TotalConcat(r[..k], [x]);
    TotalConcat(r[..k], r[k..]);
    assert r[..k] + r[k..] == r;
    assert Total([x]) == x.amount;
  }

  /** Sorting does not change the total. */
  lemma {:induction false} SortTotal(es: seq<Entry>)
    ensures Total(SortByDate(es)) == Total(es)
  {
    if |es| > 0 {
      var prev := es[..|es| - 1];
      var x := es[|es| - 1];
      assert es == prev + [x];
      SortTotal(prev);
      InsertTotal(x, SortByDate(prev));
      TotalConcat(prev, [x]);
      assert Total([x]) == x.amount;
    }
  }

  /** The stored state after `refreshUI`: the same entries, newest first, and
      the same category lists. */
  function Refresh(s: State): (r: State)
    ensures NewestFirst(r.entries)
    ensures multiset(r.entries) == multiset(s.entries)
    ensures r.incomeCategories == s.incomeCategories && r.expenseCategories == s.expenseCategories
  {
    s.(entries := SortByDate(s.entries))
  }

  /** A handler followed by the refresh it triggers: only a changed state is
      saved and re-rendered. */
  function Commit(s: State, o: Outcome): (r: State)
    ensures !o.Changed? ==> r == s
    ensures o.Changed? ==> NewestFirst(r.entries) && multiset(r.entries) == multiset(o.state.entries)
    ensures o.Changed? ==> r.incomeCategories == o.state.incomeCategories && r.expenseCategories == o.state.expenseCategories
  {
    if o.Changed? then Refresh(o.state) else s
  }

  /** The refresh reorders only: it keeps the state orphan-free, keeps the
      total, and refreshing again changes nothing. */
  lemma RefreshInvariants(s: State)
    ensures FinanceCategories.NoOrphans(s) ==> FinanceCategories.NoOrphans(Refresh(s))
    ensures Total(Refresh(s).entries) == Total(s.entries)
    ensures Refresh(Refresh(s)) == Refresh(s)
  {
    var r := Refresh(s);
    if FinanceCategories.NoOrphans(s) {
      forall i | 0 <= i < |r.entries|
        ensures r.entries[i].category in Categories(r, r.entries[i].kind)
      {
        var e := r.entries[i];
        assert e in multiset(s.entries);
        var j :| 0 <= j < |s.entries| && s.entries[j] == e;
      }
    }
    SortTotal(s.entries);
    SortKeepsSorted(r.entries);
  }
}

=== FILE: finance_state.dfy ===
/** The persisted finance state of the app once the DOM, `localStorage` and
    the dialogs are stripped away: the movements ("entries") and the two
    category lists, one for incomes and one for expenses. */
module Finance {
  import opened Wrappers
  import Text

  datatype EntryType = Income | Expense {
    function Other(): EntryType
    {
      if Income? then Expense else Income
    }
  }

  /** One movement. `batchId` is `None` when an entry loaded from storage or a
      backup has no such key (or a falsy one other than the empty string). */
  datatype Entry = Entry(
    id: string,
    kind: EntryType,
    description: string,
    amount: real,
    date: string,
    category: string,
    notes: string,
    batchId: Option<string>)

  datatype State = State(entries: seq<Entry>, incomeCategories: seq<string>, expenseCategories: seq<string>)

  /** The category list of one entry type. */
  function Categories(s: State, t: EntryType): seq<string>
  {
    if t == Income then s.incomeCategories else s.expenseCategories
  }

  /** `s` with the category list of type `t` replaced. */
  function WithCategories(s: State, t: EntryType, list: seq<string>): (r: State)
    ensures Categories(r, t) == list
    ensures Categories(r, t.Other()) == Categories(s, t.Other())
    ensures r.entries == s.entries
  {
    if t == Income then s.(incomeCategories := list) else s.(expenseCategories := list)
  }

  /** Why a transition was refused; each is a toast in the source. */
  datatype Error =
    | BlankName          // "Ingresá un nombre de categoría."
    | DuplicateName      // "La categoría ya existe." / "Ya existe otra categoría con ese nombre."
    | CategoryInUse(count: nat)
    | MissingFields      // "Completá todos los campos para guardar el movimiento."
    | InvalidCategory    // "Seleccioná una categoría válida."

  /** The result of a user action: a new state, no change at all (a guard that
      returns silently), or a refusal with its message. */
  datatype Outcome = Changed(state: State) | Unchanged | Rejected(error: Error) {
    /** The state after the action. */
    function After(s: State): State
    {
      if Changed? then state else s
    }
  }

  /** `normalizeEntry`: every field kept, a missing or falsy `batchId` becomes ''. */
  function NormalizeEntry(e: Entry): (r: Entry)
    ensures r.batchId.Some?
    ensures e.batchId.Some? ==> r.batchId == e.batchId
    ensures e.batchId.None? ==> r.batchId == Some("")
    ensures r.(batchId := e.batchId) == e
  {
    e.(batchId := Some(OrElse(e.batchId, "")))
  }

  /** Normalising is idempotent: entries already normalised are left as they are. */
  lemma NormalizeEntryIdempotent(e: Entry)
    ensures NormalizeEntry(NormalizeEntry(e)) == NormalizeEntry(e)
    ensures e.batchId.Some? ==> NormalizeEntry(e) == e
  {
  }

  /** The separator `annotate` puts between existing notes and the addition. */
  const NoteSeparator: string := " · "

  /** `annotate(notes, extra)`: `extra` alone for empty notes, otherwise the
      notes, the separator and `extra`. */
  function Annotate(notes: string, extra: string): (r: string)
    ensures |r| >= |extra| && r[|r| - |extra|..] == extra
    ensures notes != "" ==> |r| > |notes| && r[..|notes|] == notes
    ensures notes == "" <==> |r| == |extra|
  {
    if notes == "" then extra else notes + NoteSeparator + extra
  }

  /** An annotation always ends with the addition and, when there were notes,
      starts with them intact followed by the separator, so both parts can be
      read back. */
  lemma AnnotateKeepsBoth(notes: string, extra: string)
    ensures var r := Annotate(notes, extra);
      && |r| >= |extra|
      && r[|r| - |extra|..] == extra
      && (notes == "" ==> r == extra)
      && (notes != "" ==>
            |r| == |notes| + 3 + |extra| && r[..|notes|] == notes && r[|notes|..|notes| + 3] == NoteSeparator)
  {
    var r := Annotate(notes, extra);
    if notes != "" {
      assert r == notes + NoteSeparator + extra;
      assert r[..|notes|] == notes;
      assert r[|notes|..|notes| + 3] == NoteSeparator;
      assert r[|r| - |extra|..] == extra;
    }
  }

  /** `reduce((acc, e) => acc + Number(e.amount), 0)`: the amounts summed
      left to right. */
  function Total(es: seq<Entry>): (r: real)
    ensures |es| == 1 ==> r == es[0].amount
  {
    if |es| == 0 then 0.0 else Total(es[..|es| - 1]) + es[|es| - 1].amount
  }

  /** Amounts that are none of them negative total at least 0. */
  lemma {:induction false} TotalNonNegative(es: seq<Entry>)
    requires forall i :: 0 <= i < |es| ==> es[i].amount >= 0.0
    ensures Total(es) >= 0.0
  {
    if |es| > 0 {
      var prev := es[..|es| - 1];
      assert forall i :: 0 <= i < |prev| ==> prev[i] == es[i];
      TotalNonNegative(prev);
    }
  }

  /** Totals add up over concatenation. */
  lemma {:induction false} TotalConcat(a: seq<Entry>, b: seq<Entry>)
    ensures Total(a + b) == Total(a) + Total(b)
    decreases |b|
  {
    if |b| == 0 {
      assert a + b == a;
    } else {
      var ab := a + b;
      assert ab[..|ab| - 1] == a + b[..|b| - 1];
      assert ab[|ab| - 1] == b[|b| - 1];
      TotalConcat(a, b[..|b| - 1]);
    }
  }
}

=== FILE: seqs.dfy ===
/** Order-preserving selection and concatenation over sequences: the model of
    JavaScript's `Array.prototype.filter` and of flattening per-item command
    groups into one list. */
module Seqs {

  /** `s.filter(p)`: the elements of `s` satisfying `p`, in their original order. */
  function Filter<T(!new)>(s: seq<T>, p: T -> bool): (r: seq<T>)
    ensures |r| <= |s|
    ensures forall x :: x in r <==> x in s && p(x)
  {
    if |s| == 0 then []
    else (if p(s[0]) then [s[0]] else []) + Filter(s[1..], p)
  }

  /** Filtering keeps every copy of an accepted element and no copy of a
      rejected one. */
  lemma {:induction false} FilterCount<T(!new)>(s: seq<T>, p: T -> bool)
    ensures forall x :: multiset(Filter(s, p))[x] == if p(x) then multiset(s)[x] else 0
  {
    if |s| > 0 {
      assert s == [s[0]] + s[1..];
      FilterCount(s[1..], p);
    }
  }

  /** `sub` can be obtained from `s` by deleting elements, so the elements of
      `sub` appear in `s` in the same relative order. */
  predicate IsSubsequence<T(==)>(sub: seq<T>, s: seq<T>)
    decreases |s|
  {
    if |sub| == 0 then true
    else if |s| == 0 then false
    else if sub[0] == s[0] then IsSubsequence(sub[1..], s[1..])
    else IsSubsequence(sub, s[1..])
  }

  /** The filtered sequence keeps the survivors in their original order. */
  lemma {:induction false} FilterIsSubsequence<T(!new)>(s: seq<T>, p: T -> bool)
    ensures IsSubsequence(Filter(s, p), s)
  {
    if |s| > 0 {
      var rest := Filter(s[1..], p);
      FilterIsSubsequence(s[1..], p);
      if p(s[0]) {
        assert Filter(s, p) == [s[0]] + rest;
        assert ([s[0]] + rest)[1..] == rest;
      } else {
        assert Filter(s, p) == rest;
        SubsequenceSkipsHead(rest, s);
      }
    }
  }

  /** Putting one more element in front of `s` keeps every subsequence of `s`
      a subsequence. */
  lemma {:induction false} SubsequenceSkipsHead<T>(sub: seq<T>, s: seq<T>)
    requires |s| > 0
    requires IsSubsequence(sub, s[1..])
    ensures IsSubsequence(sub, s)
    decreases |s|, 0
  {
    if |sub| > 0 && sub[0] == s[0] {
      SubsequenceDropHead(sub, s[1..]);
    }
  }

  /** Removing the first element of a subsequence leaves a subsequence. */
  lemma {:induction false} SubsequenceDropHead<T>(sub: seq<T>, s: seq<T>)
    requires |sub| > 0
    requires IsSubsequence(sub, s)
    ensures IsSubsequence(sub[1..], s)
    decreases |s|, 1
  {
    if sub[0] == s[0] {
      if |sub[1..]| > 0 {
        SubsequenceSkipsHead(sub[1..], s);
      }
    } else {
      SubsequenceDropHead(sub, s[1..]);
      if |sub[1..]| > 0 {
        SubsequenceSkipsHead(sub[1..], s);
      }
    }
  }

  /** Filtering distributes over concatenation; this is what lets an
      element-by-element fold be compared with a filter. */
  lemma {:induction false} FilterConcat<T(!new)>(a: seq<T>, b: seq<T>, p: T -> bool)
    ensures Filter(a + b, p) == Filter(a, p) + Filter(b, p)
  {
    if |a| == 0 {
      assert a + b == b;
    } else {
      assert (a + b)[1..] == a[1..] + b;
      FilterConcat(a[1..], b, p);
    }
  }

  /** Filtering by `p` keeps every element when all satisfy `p`, and none when
      none does. */
  lemma {:induction false} FilterAllOrNone<T(!new)>(s: seq<T>, p: T -> bool)
    ensures (forall i :: 0 <= i < |s| ==> p(s[i])) ==> Filter(s, p) == s
    ensures (forall i :: 0 <= i < |s| ==> !p(s[i])) ==> Filter(s, p) == []
  {
    if |s| > 0 {
      FilterAllOrNone(s[1..], p);
      assert forall i :: 0 <= i < |s[1..]| ==> s[1..][i] == s[i + 1];
    }
  }

  /** The commands of a list of groups, one group after the other. */
  function Flatten<T>(groups: seq<seq<T>>): (r: seq<T>)
    ensures |groups| == 0 ==> r == []
    ensures |groups| > 0 ==> |r| >= |groups[0]| && r[..|groups[0]|] == groups[0]
  {
    if |groups| == 0 then [] else groups[0] + Flatten(groups[1..])
  }

  /** Each part of a five-part concatenation is found back at its offset. */
  lemma ConcatParts<T>(p0: seq<T>, p1: seq<T>, p2: seq<T>, p3: seq<T>, p4: seq<T>)
    ensures var s := p0 + p1 + p2 + p3 + p4;
      var a := |p0|;
      var b := a + |p1|;
      var c := b + |p2|;
      var d := c + |p3|;
      && |s| == d + |p4|
      && s[..a] == p0 && s[a..b] == p1 && s[b..c] == p2 && s[c..d] == p3 && s[d..] == p4
  {
  }

  /** A property every element of every group has, every element of the
      flattened sequence has. */
  lemma {:induction false} FlattenAll<T>(groups: seq<seq<T>>, p: T -> bool)
    requires forall k, j :: 0 <= k < |groups| && 0 <= j < |groups[k]| ==> p(groups[k][j])
    ensures forall j :: 0 <= j < |Flatten(groups)| ==> p(Flatten(groups)[j])
  {
    if |groups| > 0 {
      FlattenAll(groups[1..], p);
      var f := Flatten(groups);
      assert f == groups[0] + Flatten(groups[1..]);
      assert forall j :: |groups[0]| <= j < |f| ==> f[j] == Flatten(groups[1..])[j - |groups[0]|];
    }
  }

  /** A property every element of `a` and of `b` has, every element of
      `a + b` has. */
  lemma AllConcat<T>(a: seq<T>, b: seq<T>, p: T -> bool)
    requires forall j :: 0 <= j < |a| ==> p(a[j])
    requires forall j :: 0 <= j < |b| ==> p(b[j])
    ensures forall j :: 0 <= j < |a + b| ==> p((a + b)[j])
  {
  }
  /** Filtering with two predicates that agree everywhere gives the same
      result. */
  lemma {:induction false} FilterSamePredicate<T(!new)>(s: seq<T>, p: T -> bool, q: T -> bool)
    requires forall x :: p(x) == q(x)
    ensures Filter(s, p) == Filter(s, q)
  {
    if |s| > 0 {
      FilterSamePredicate(s[1..], p, q);
    }
  }

  /** Every sequence is a subsequence of itself. */
  lemma {:induction false} SubsequenceReflexive<T>(s: seq<T>)
    ensures IsSubsequence(s, s)
  {
    if |s| > 0 {
      SubsequenceReflexive(s[1..]);
    }
  }

  /** Filtering twice with the same predicate is filtering once. */
  lemma FilterIdempotent<T(!new)>(s: seq<T>, p: T -> bool)
    ensures Filter(Filter(s, p), p) == Filter(s, p)
  {
    var r := Filter(s, p);
    assert forall i :: 0 <= i < |r| ==> r[i] in r;
    FilterAllOrNone(r, p);
  }

  /** An element the predicate rejects makes the filtered sequence strictly
      shorter. */
  lemma {:induction false} FilterDrops<T(!new)>(s: seq<T>, p: T -> bool, x: T)
    requires x in s && !p(x)
    ensures |Filter(s, p)| < |s|
  {
    if s[0] != x {
      FilterDrops(s[1..], p, x);
    }
  }

  /** `indexOf`: the position of the first occurrence of `x`, or -1. */
  function IndexOf<T(==)>(s: seq<T>, x: T): (i: int)
    ensures -1 <= i < |s|
    ensures i == -1 <==> x !in s
    ensures 0 <= i ==> s[i] == x && forall j :: 0 <= j < i ==> s[j] != x
  {
    if |s| == 0 then -1
    else if s[0] == x then 0
    else
      var k := IndexOf(s[1..], x);
      assert forall j :: 1 <= j < |s| ==> s[j] == s[1..][j - 1];
      if k == -1 then -1 else k + 1
  }

  /** `splice(i, 1)`: the element at `i` taken out, the others shifted down
      one place. */
  function RemoveAt<T>(s: seq<T>, i: nat): (r: seq<T>)
    requires i < |s|
    ensures |r| == |s| - 1
    ensures forall j :: 0 <= j < |r| ==> r[j] == if j < i then s[j] else s[j + 1]
    ensures multiset(r) == multiset(s) - multiset{s[i]}
  {
    assert s == s[..i] + [s[i]] + s[i + 1..];
    s[..i] + s[i + 1..]
  }
}

=== FILE: text.dfy ===
/** The string primitives the finance screens rely on: `String.prototype.trim`,
    `toLowerCase`, `includes`, the relational string comparison `<=`, and
    decimal rendering of a counter inside a template literal. */
module Text {

  /** White space removed by `trim()`: the ECMAScript WhiteSpace and
      LineTerminator characters (the other Unicode space separators besides
      U+00A0 are not modelled). */
  predicate IsSpace(c: char)
  {
    c == ' ' || c == '\t' || c == '\n' || c == '\r' || c == '\U{000B}' || c == '\U{000C}'
    || c == '\U{00A0}' || c == '\U{FEFF}' || c == '\U{2028}' || c == '\U{2029}'
  }

  predicate AllSpace(s: string)
  {
    forall k :: 0 <= k < |s| ==> IsSpace(s[k])
  }

  /** Index of the first character that is not white space (or |s|). */
  function TrimStartIndex(s: string): (i: nat)
    ensures i <= |s|
    ensures forall k :: 0 <= k < i ==> IsSpace(s[k])
    ensures i < |s| ==> !IsSpace(s[i])
  {
    if |s| == 0 || !IsSpace(s[0]) then 0 else 1 + TrimStartIndex(s[1..])
  }

  /** One past the last character that is not white space (or 0). */
  function TrimEndIndex(s: string): (j: nat)
    ensures j <= |s|
    ensures forall k :: j <= k < |s| ==> IsSpace(s[k])
    ensures j > 0 ==> !IsSpace(s[j - 1])
  {
    if |s| == 0 || !IsSpace(s[|s| - 1]) then |s| else TrimEndIndex(s[..|s| - 1])
  }

  /** `s.trim()`: `s` without leading and trailing white space. */
  function Trim(s: string): (r: string)
    ensures r == "" <==> AllSpace(s)
    ensures r != "" ==> !IsSpace(r[0]) && !IsSpace(r[|r| - 1])
    ensures |r| <= |s|
    // Only a leading and a trailing run of white space is removed.
    ensures exists i, j :: 0 <= i <= j <= |s| && r == s[i..j] && AllSpace(s[..i]) && AllSpace(s[j..])
  {
    var i := TrimStartIndex(s);
    var j := TrimEndIndex(s);
    if i < j then
      assert AllSpace(s[..i]) && AllSpace(s[j..]);
      s[i..j]
    else
      assert s[..|s|] == s && s[|s|..|s|] == "";
      ""
  }

  /** Trimming twice is trimming once. */
  lemma TrimIdempotent(s: string)
    ensures Trim(Trim(s)) == Trim(s)
  {
    var t := Trim(s);
    if t != "" {
      assert TrimStartIndex(t) == 0;
      assert TrimEndIndex(t) == |t|;
      assert t[0..|t|] == t;
    }
  }

  /** ASCII case mapping of `toLowerCase()`. */
  function LowerChar(c: char): char
  {
    if 'A' <= c <= 'Z' then (c as int + 32) as char else c
  }

  /** `s.toLowerCase()`, character by character. */
  function ToLower(s: string): (r: string)
    ensures |r| == |s|
    ensures forall k :: 0 <= k < |s| ==> r[k] == LowerChar(s[k])
  {
    if |s| == 0 then "" else [LowerChar(s[0])] + ToLower(s[1..])
  }

  /** Lower-casing is idempotent, so searching with an already lower-cased
      needle is the same as lower-casing it again. */
  lemma ToLowerIdempotent(s: string)
    ensures ToLower(ToLower(s)) == ToLower(s)
  {
  }

  predicate IsPrefix(t: string, s: string)
  {
    |t| <= |s| && s[..|t|] == t
  }

  /** `t` occurs in `s` starting at position `i`. */
  predicate OccursAt(s: string, t: string, i: int)
  {
    0 <= i && i + |t| <= |s| && s[i..i + |t|] == t
  }

  /** `s.includes(t)`: scans the start positions of `s` from left to right. */
  function Contains(s: string, t: string): (r: bool)
    ensures r <==> exists i :: OccursAt(s, t, i)
    decreases |s|
  {
    if IsPrefix(t, s) then
      assert OccursAt(s, t, 0);
      true
    else if |s| == 0 then
      false
    else
      var r := Contains(s[1..], t);
      assert forall i :: OccursAt(s[1..], t, i) <==> OccursAt(s, t, i + 1);
      assert !OccursAt(s, t, 0);
      assert (exists i :: OccursAt(s, t, i)) ==> r by {
        if exists i :: OccursAt(s, t, i) {
          var i :| OccursAt(s, t, i);
          assert OccursAt(s[1..], t, i - 1);
        }
      }
      r
  }

  /** The relational comparison `a <= b` on strings: lexicographic order of
      the characters, a proper prefix sorting first. */
  predicate LessEq(a: string, b: string)
  {
    if |a| == 0 then true
    else if |b| == 0 then false
    else if a[0] != b[0] then a[0] < b[0]
    else LessEq(a[1..], b[1..])
  }

  /** `LessEq` is a total order, so the `[from, to]` window of the search is
      an interval of that order. */
  lemma {:induction false} LessEqTotal(a: string, b: string)
    ensures LessEq(a, b) || LessEq(b, a)
  {
    if |a| > 0 && |b| > 0 && a[0] == b[0] {
      LessEqTotal(a[1..], b[1..]);
    }
  }

  /** `LessEq` is transitive. */
  lemma {:induction false} LessEqTransitive(a: string, b: string, c: string)
    requires LessEq(a, b) && LessEq(b, c)
    ensures LessEq(a, c)
  {
    if |a| > 0 && |b| > 0 && |c| > 0 && a[0] == b[0] && b[0] == c[0] {
      LessEqTransitive(a[1..], b[1..], c[1..]);
    }
  }

  /** Every string is `LessEq` itself. */
  lemma {:induction false} LessEqReflexive(a: string)
    ensures LessEq(a, a)
  {
    if |a| > 0 {
      LessEqReflexive(a[1..]);
    }
  }

  function DigitChar(d: nat): char
    requires d < 10
  {
    ('0' as int + d) as char
  }

  /** The numeric value of a string of decimal digits. */
  function DigitsValue(s: string): nat
    requires forall k :: 0 <= k < |s| ==> '0' <= s[k] <= '9'
  {
    if |s| == 0 then 0
    else DigitsValue(s[..|s| - 1]) * 10 + (s[|s| - 1] as int - '0' as int)
  }

  /** The decimal text of `n` as a template literal prints it. */
  function NatToString(n: nat): (r: string)
    ensures |r| >= 1
    ensures forall k :: 0 <= k < |r| ==> '0' <= r[k] <= '9'
    ensures DigitsValue(r) == n
    ensures r[0] == '0' <==> n == 0
  {
    if n < 10 then [DigitChar(n)]
    else
      var p := NatToString(n / 10);
      var r := p + [DigitChar(n % 10)];
      assert r[..|r| - 1] == p;
      r
  }
}

=== FILE: wrappers.dfy ===
/** Optional values, used wherever the source reads a property that may be
    missing (`undefined`) or may hold a value JavaScript treats as falsy. */
module Wrappers {

  datatype Option<+T> = None | Some(value: T) {

    /** The wrapped value, or `default` when there is none. */
    function GetOr(default: T): (r: T)
      ensures Some? ==> r == value
      ensures None? ==> r == default
    {
      match this
      case Some(v) => v
      case None => default
    }
  }

  /** JavaScript's `s || d` for a string-valued property: a missing property and
      the empty string are both falsy and select the fallback. */
  function OrElse(s: Option<string>, d: string): (r: string)
    ensures s.Some? && s.value != "" ==> r == s.value
    ensures s.None? || s.value == "" ==> r == d
  {
    if s.Some? && s.value != "" then s.value else d
  }

  /** `a || b || d`: the first truthy of two optional strings, else `d`. */
  function OrElse2(a: Option<string>, b: Option<string>, d: string): (r: string)
    ensures r == d || (a.Some? && r == a.value) || (b.Some? && r == b.value)
    ensures a.Some? && a.value != "" ==> r == a.value
  {
    OrElse(a, OrElse(b, d))
  }
}
